=== FILE: README.md ===
# LocalFileConvert decision logic in Dafny

LocalFileConvert is a browser-only file converter. It turns JPG/PNG images
into PDFs or other image formats, merges PDFs page by page, and extracts
text from images with OCR. This project models the decision logic of that
application as pure functions over immutable datatypes:

- file-type classification (`FileUtils`);
- the conversion capability table (`ConversionMap`);
- the landing-page route table (`ConversionRoutes`);
- the single-file converter hook (`FileConverter`): the progress ticker,
  fit-to-page geometry in exact `real` arithmetic, embedder choice, output
  naming, the type-by-target dispatch and the exit paths of `convertFile`;
- the PDF merge queue (`PdfMerger`): load, reorder, remove file, remove
  page, merge, reset and the progress clamps;
- the drag-to-reorder glue of the page preview (`PagePreview`);
- the OCR worker lifecycle (`Ocr`);
- the upload gate of a single-route conversion page (`ConversionPage`).

`Wrappers` holds `Option`/`Result`. `Text` holds the string built-ins the
code relies on: ASCII lower-casing, `split(sep).pop()` and
`split(sep)[0]`, `trim()`, `startsWith` and decimal printing of naturals.

Library and browser calls (pdf-lib, pdf.js, tesseract.js, canvas,
`FileReader`, image decoding) are not modelled. Each becomes the outcome
it produces, held in an environment record (`ConverterEnv`, `OcrEnv`) or
passed as a parameter: a PDF's parsed page count, whether saving works,
the decoded image size. The progress timers become a count of timer
firings.

## Model

| member | source | states |
|---|---|---|
| Text.AsciiLower | utils/file-utils.ts:20 | lower-casing keeps the length and maps each character to its lower-case form; `AsciiLowerIdempotent` and `AsciiLowerAppend` go with it |
| Text.LastSegment | utils/file-utils.ts:20 | `split(sep).pop()` is the longest `sep`-free suffix: it has no `sep`, is a suffix, and is preceded by `sep` when shorter than the input |
| Text.LastSegmentAfter | lib/conversion-routes.ts:108 | the last segment of `x + sep + y` with `y` free of `sep` is exactly `y`, proved by induction |
| Text.FirstSegment | hooks/useFileConverter.tsx:203 | `split(sep)[0]` is the longest `sep`-free prefix |
| Text.FirstSegmentBefore | hooks/useFileConverter.tsx:203 | the first segment of `x + sep + y` with `x` free of `sep` is exactly `x`, proved by induction |
| Text.Trim | utils/ocr-utils.ts:66 | `trim()` returns a slice of its input with only whitespace outside it and no whitespace at either end |
| Text.NatToString | components/pdf-page-preview.tsx:46 | the decimal text of a natural: non-empty and all digits |
| Text.StartsWithSplit | utils/ocr-utils.ts:43 | `startsWith(prefix)` holds exactly when the string is the prefix followed by something |
| Text.NatToStringRoundTrip | components/pdf-page-preview.tsx:46 | reading back the decimal text of `n` gives `n`, proved by induction |
| Text.NatToStringInjective | components/pdf-page-preview.tsx:46 | different numbers print differently |
| FileUtils.ParseFileType | utils/file-utils.ts:1-9 | a text parses to a file type exactly when it is that type's name |
| FileUtils.ParseFileTypeRoundTrip | utils/file-utils.ts:1-9 | each of jpg, jpeg, png, pdf parses back to itself |
| FileUtils.SupportedExtensionsAreTypeNames | utils/file-utils.ts:4-9 | the supported-extension list holds exactly the four type names |
| FileUtils.GetFileType | utils/file-utils.ts:16-21 | no extension exactly when the name has no dot or ends in one; otherwise a non-empty, dot-free, lower-cased copy of the text after the last dot |
| FileUtils.GetFileTypeOfSplit | utils/file-utils.ts:20 | for `prefix.ext` with a dot-free non-empty `ext`, the extension is `ext` lower-cased |
| FileUtils.GetFileTypeTrailingDot | utils/file-utils.ts:20 | a name ending in a dot has no extension, because the empty segment falls through to null |
| FileUtils.GetFileTypeLeadingDot | utils/file-utils.ts:20 | `.png` has extension `png` |
| FileUtils.GetFileTypeNoDot | utils/file-utils.ts:17-19 | a dot-free name has no extension |
| FileUtils.GetFileTypeCaseInsensitive | utils/file-utils.ts:20 | lower-casing the name first does not change the extension |
| FileUtils.ClassifyFileCaseExample | utils/file-utils.ts:20 | `A.PNG` and `a.png` both classify as PNG |
| FileUtils.ClassifyFile | utils/file-utils.ts:28-34 | a name has a supported type exactly when it is valid, and that type is its extension |
| FileUtils.IsValidFileTypeExactly | utils/file-utils.ts:28-34 | `IsValidFileType` (`isValidFileType`) holds exactly when the name's extension is jpg, jpeg, png or pdf |
| ConversionMap.GetAvailableConversionsForType | utils/conversion-map.ts:19-23 | an unknown type lists nothing; a target is listed exactly when the edge is in the table |
| ConversionMap.IsConversionSupported | utils/conversion-map.ts:34-39 | holds exactly for the edges of the capability graph |
| ConversionMap.GetAvailableConversions | utils/conversion-map.ts:46-50 | a name without an extension lists nothing; otherwise a target is listed exactly when the name's type has that edge, and the list is that type's table row itself, in the declared order and without repeats (the first entry is the default target) |
| ConversionMap.TableRows | utils/conversion-map.ts:5-10 | the rows in order: pdf none, jpg and jpeg [pdf, png], png [pdf, jpg]; jpg to pdf is supported and pdf to jpg is not |
| ConversionMap.ListedTargetsAreSupported | utils/conversion-map.ts:19-39 | every listed target passes the membership test |
| ConversionMap.TableShape | utils/conversion-map.ts:5-10 | no self-edges, no edge into jpeg, no edge out of pdf |
| ConversionMap.BareExtensionHasNoConversions | utils/conversion-map.ts:46-50 | passing the bare text `jpg` lists nothing, since it has no dot |
| ConversionRoutes.FindById | lib/conversion-routes.ts:109 | `find` returns nothing exactly when no route has the id, and otherwise the first route that has it |
| ConversionRoutes.GetConversionFromPath | lib/conversion-routes.ts:105-110 | a found route is in the table and its id is the path's last `/`-segment; nothing is found only when no id matches that segment |
| ConversionRoutes.GetAllConversionPaths | lib/conversion-routes.ts:112-114 | one path per route in table order, each `/convert/` followed by the route's id, and each leading back to its route |
| ConversionRoutes.RouteIdsDistinct | lib/conversion-routes.ts:14-80 | route ids are pairwise distinct |
| ConversionRoutes.RoutePathsArePrefixedIds | lib/conversion-routes.ts:14-80 | no id contains `/` and every path is `/convert/` followed by the id |
| ConversionRoutes.RouteRoundTrip | lib/conversion-routes.ts:105-110 | looking up a route's own path finds that route |
| ConversionRoutes.FindByIdFindsMember | lib/conversion-routes.ts:109 | with distinct ids, looking up a member's id finds that member |
| ConversionRoutes.TrailingSlashFindsNothing | lib/conversion-routes.ts:108-109 | a path ending in `/` has an empty last segment and finds no route |
| ConversionRoutes.NoPdfSourceRoute | lib/conversion-routes.ts:81-102 | no route has source pdf |
| ConversionRoutes.RoutesAgreeWithCapabilityTable | lib/conversion-routes.ts:14-58 | every route whose target is not `txt` is an edge of the capability table |
| FileConverter.UpdateProgress | hooks/useFileConverter.tsx:39-44 | below 90 a tick adds exactly 10, from 90 on it stays at 90, and multiples of 10 in 0..90 stay so |
| FileConverter.ProgressAfter | hooks/useFileConverter.tsx:197-199 | after any number of ticks from 0 the progress is a multiple of 10 in 0..90 |
| FileConverter.ProgressAfterTicks | hooks/useFileConverter.tsx:39-44 | ticking from 0 visits 0, 10, ..., 90 and then stays at 90, proved by induction |
| FileConverter.ProgressMonotone | hooks/useFileConverter.tsx:39-44 | more ticks never mean less progress |
| FileConverter.FitToPage | hooks/useFileConverter.tsx:110-127 | the drawn image fits the page, keeps the image's aspect ratio, fills the page's width or height, equals the image scaled by the smaller ratio, and has equal non-negative margins |
| FileConverter.FitArithmetic | hooks/useFileConverter.tsx:111-119 | the ratio identities behind the fit, including that the height branch is taken exactly when the page is relatively narrower than the image |
| FileConverter.FitWideImage | hooks/useFileConverter.tsx:112-113 | a 2000 by 1000 image fills the page's width and is centred vertically |
| FileConverter.FitTallImage | hooks/useFileConverter.tsx:116-119 | a 1000 by 2000 image fills the page's height and is centred horizontally |
| FileConverter.EmbedderFor | hooks/useFileConverter.tsx:100-107 | `image/jpeg` embeds as JPG and `image/png` as PNG; anything else fails with "Unsupported image format" |
| FileConverter.OutputName | hooks/useFileConverter.tsx:203 | the name is a dot-free stem, a dot and the format; the stem is the input's text before its first dot |
| FileConverter.OutputNameExtension | hooks/useFileConverter.tsx:175 | with a dot-free format the output's extension is that format lower-cased |
| FileConverter.OutputNameKeepsFirstSegment | hooks/useFileConverter.tsx:203 | only the text before the first dot survives, so `holiday.photo.png` becomes `holiday.pdf` |
| FileConverter.Dispatch | hooks/useFileConverter.tsx:205-220 | pdf to jpg/png runs the PDF mock; an image to pdf runs image-to-PDF; an image to jpg/png runs image-to-image, same format included; everything else runs nothing |
| FileConverter.DispatchIgnoresCapabilityTable | hooks/useFileConverter.tsx:205-220 | png to png, jpeg to jpg and pdf to jpg are dispatched although the table lists none of them |
| FileConverter.SupportedConversionsAreDispatched | hooks/useFileConverter.tsx:205-220 | every edge of the table reaches a converter |
| FileConverter.ConvertImageToPdf | hooks/useFileConverter.tsx:82-143 | a PDF is produced exactly when the read, the MIME-chosen embed and the save succeed; it is named stem.pdf and holds the fitted image |
| FileConverter.ConvertImageToImage | hooks/useFileConverter.tsx:145-182 | an image is produced exactly when read, decode and canvas succeed; it is named stem.format and encoded as `image/format` |
| FileConverter.RunConverter | hooks/useFileConverter.tsx:53-80 | an error escapes only from the PDF mock without a canvas; no converter gives nothing; the PDF mock produces a data URL exactly when a canvas exists; the image branches produce exactly what `convertImageToPdf` / `convertImageToImage` produce for the first-segment stem; any product is named after the first segment plus the target |
| FileConverter.ConvertFile | hooks/useFileConverter.tsx:184-231 | no file or an invalid type changes nothing; otherwise it ends not converting with file and target kept, at 100 or at a timer value with the old result; a new result always comes with 100 and the expected name; for a valid file, progress is 100 exactly when no error escaped (the timer value otherwise), and whatever the converter produced is stored, the old result kept only when it produced nothing |
| FileConverter.EmbedFailureIsSwallowed | hooks/useFileConverter.tsx:138-140 | a failed embed still ends at 100 with the previous converted file left in place |
| FileConverter.ImageToPdfOutputIsPdf | hooks/useFileConverter.tsx:136 | a produced image-to-PDF file has extension pdf |
| FileConverter.ImageToPdfSucceeds | hooks/useFileConverter.tsx:82-143 | a JPEG or PNG upload to pdf with reading, embedding and saving working stores the fitted one-page PDF named `<stem>.pdf` and reports 100 |
| FileConverter.ImageToImageSucceeds | hooks/useFileConverter.tsx:145-182 | an image upload to jpg or png with reading, decoding and the canvas working stores the data URL of the requested type named `<stem>.<target>` and reports 100 |
| FileConverter.TextTargetProducesNothing | hooks/useFileConverter.tsx:205-222 | a `txt` target runs no converter yet reports 100 |
| PdfMerger.ClampedTick | hooks/usePdfMerger.tsx:37-39 | a tick never exceeds 90, never lowers progress from 90 or below, and is either 90 or the old value plus the step, never more than the old value plus the step: `Math.min(prev + step, 90)` |
| PdfMerger.ClampedAfter | hooks/usePdfMerger.tsx:163-165 | after any number of ticks the progress is in 0..90 |
| PdfMerger.ClampedAfterMonotone | hooks/usePdfMerger.tsx:163-165 | more ticks never mean less progress, proved by induction |
| PdfMerger.PageProgress | hooks/usePdfMerger.tsx:94 | the per-page estimate is in 0..90 and is 90 once all pages are done |
| PdfMerger.PdfPositions | hooks/usePdfMerger.tsx:45-52 | the positions of the PDF inputs, each pointing at a PDF, all of them, in increasing order |
| PdfMerger.LoadAll | hooks/usePdfMerger.tsx:41-103 | the load loop yields a result exactly when every PDF input parses |
| PdfMerger.LoadAllListed | hooks/usePdfMerger.tsx:45-78 | a load records one entry per PDF input in input order, and every page of every PDF input exactly once, tagged with its input position, in ascending (file, page) order |
| PdfMerger.LoadPdfFiles | hooks/usePdfMerger.tsx:32-126 | an empty drop changes nothing; otherwise loading ends with `mergedPdf` kept, at 100 on success, and with the old lists at a clamped value on failure |
| PdfMerger.LoadPdfFilesListsPages | hooks/usePdfMerger.tsx:105-106 | after a successful load the state holds exactly the listed files and pages |
| PdfMerger.LoadReplaces | hooks/usePdfMerger.tsx:105-106 | a successful load does not depend on the earlier lists |
| PdfMerger.DropIndex | hooks/usePdfMerger.tsx:149-153 | filtering out one position removes exactly that element and keeps the rest in order; an out-of-range position changes nothing |
| PdfMerger.InsertAt | hooks/usePdfMerger.tsx:133 | `splice(i, 0, x)` puts `x` at `i`, or at the end when `i` is past it, and leaves the rest in order |
| PdfMerger.ReorderPages | hooks/usePdfMerger.tsx:128-138 | reordering is a same-length permutation with the moved page at the destination and the other pages in their old relative order |
| PdfMerger.ReorderInPlace | hooks/usePdfMerger.tsx:128-138 | moving a page onto its own position changes nothing |
| PdfMerger.PagesWithout | hooks/usePdfMerger.tsx:144-146 | a page survives exactly when it was present and belongs to another file |
| PdfMerger.PagesWithoutAppend | hooks/usePdfMerger.tsx:144-146 | filtering distributes over concatenation, so survivors keep their order; proved by induction |
| PdfMerger.RemoveFile | hooks/usePdfMerger.tsx:140-147 | exactly entry k of `pdfFiles` goes; no page of file k survives, all others do with unchanged tags, in their original order and multiplicity (the result is the order-preserving filter `PagesWithout`, which distributes over concatenation); nothing else changes |
| PdfMerger.RemovePage | hooks/usePdfMerger.tsx:149-153 | only the page at the given position goes and nothing else changes |
| PdfMerger.Reset | hooks/usePdfMerger.tsx:222-227 | reset gives the initial state, with the loading flag left alone |
| PdfMerger.ResolvePages | hooks/usePdfMerger.tsx:172-183 | the indexing of the copy loop gets through exactly when every page names an existing file entry and page, and then names the pages to copy in list order; whether re-loading and copying them work is `MergePdfs`' separate outcome |
| PdfMerger.MergedName | hooks/usePdfMerger.tsx:194 | the merged file's name is `merged_`, then exactly the date text, then `.pdf`, and whatever the date text its extension is pdf |
| PdfMerger.MergePdfs | hooks/usePdfMerger.tsx:155-209 | no pages changes nothing; otherwise all or nothing: it reaches 100 exactly when every reference resolves and re-loading, copying and saving all work, holding the pages copied in list order under `merged_<date>.pdf`; on any failure `mergedPdf` is kept at a clamped value; loading always ends |
| PdfMerger.LoadedPagesDistinct | hooks/usePdfMerger.tsx:69-78 | a loaded page list has no repeated reference |
| PdfMerger.DropIndexKeepsDistinct | hooks/usePdfMerger.tsx:149-153 | removing a page keeps references distinct |
| PdfMerger.ReorderKeepsDistinct | hooks/usePdfMerger.tsx:128-138 | reordering keeps references distinct |
| PdfMerger.PagesWithoutKeepsDistinct | hooks/usePdfMerger.tsx:144-146 | removing a file keeps references distinct, proved by induction |
| PdfMerger.RemovePageKeepsResolvable | hooks/usePdfMerger.tsx:149-153 | removing a page keeps every reference resolvable |
| PdfMerger.ReorderKeepsResolvable | hooks/usePdfMerger.tsx:128-138 | reordering keeps every reference resolvable |
| PdfMerger.ResolvableMergeSucceeds | hooks/usePdfMerger.tsx:167-197 | with resolvable references, a non-empty merge reaches 100 exactly when re-loading, copying and saving work, and then holds a merged document |
| PdfMerger.LoadTwo | hooks/usePdfMerger.tsx:45-78 | loading two one-page PDFs gives two entries and pages (0,0), (1,0) |
| PdfMerger.LoadCoverThenTwo | hooks/usePdfMerger.tsx:45-78 | with an image in front, the two PDFs' pages are tagged 1 and 2 while `pdfFiles` has two entries |
| PdfMerger.SkippedFileShiftsLookup | hooks/usePdfMerger.tsx:74-75 | after skipping a non-PDF input the tags point one entry too far: the lookup fails, and once the last page is removed the merge copies the wrong file |
| PdfMerger.RemoveFileLeavesStaleTags | hooks/usePdfMerger.tsx:140-147 | after removing the first of two loaded files the remaining page keeps tag 1, no longer resolves, and the merge fails |
| PdfMerger.LoadAllCorrected | hooks/usePdfMerger.tsx:41-103 | the load with tags taken from `pdfFiles` positions succeeds under the same condition and tags each page with its entry's position |
| PdfMerger.LoadersAgreeOnFiles | hooks/usePdfMerger.tsx:59-63 | both loads record the same files, proved by induction |
| PdfMerger.LoadPdfFilesCorrected | hooks/usePdfMerger.tsx:32-126 | the same outcomes as `loadPdfFiles`, and every page of a successful load resolves |
| PdfMerger.RemoveFileCorrected | hooks/usePdfMerger.tsx:140-147 | removing a file with later tags shifted down keeps every page resolvable and pointing at the file it came from |
| PagePreview.PageKey | components/pdf-page-preview.tsx:46 | the key is the decimal file index, a dash and the decimal page index, and it splits at its dash back into those two texts |
| PagePreview.PageKeyRoundTrip | components/pdf-page-preview.tsx:46 | both indices can be read back out of the key |
| PagePreview.PageKeyInjective | components/pdf-page-preview.tsx:136 | different pages never share a key |
| PagePreview.Items | components/pdf-page-preview.tsx:136 | one sortable id per page, in list order |
| PagePreview.ItemsDistinct | components/pdf-page-preview.tsx:136 | pages without repeats give distinct sortable ids |
| PagePreview.IndexOf | components/pdf-page-preview.tsx:108-113 | `findIndex` returns nothing exactly when the key is absent, and otherwise its first position |
| PagePreview.FindKey | components/pdf-page-preview.tsx:108-113 | nothing exactly when no page has the key, and otherwise the first position whose page has it |
| PagePreview.FindKeyUnique | components/pdf-page-preview.tsx:108-113 | among distinct pages the position found is the only one holding the key |
| PagePreview.HandleDragEnd | components/pdf-page-preview.tsx:101-119 | `onReorder` is called exactly when the drop target exists, differs from the dragged item, and both keys are in the list; it gets two different positions holding those keys |
| PagePreview.DragEnd | components/pdf-page-preview.tsx:101-119 | a drag only permutes the pages; dropping on itself, on nothing, or with an unknown key changes nothing |
| PagePreview.DragMovesPageOntoTarget | components/pdf-page-preview.tsx:104-116 | among distinct pages a drag from one item onto another moves the dragged page to the target's position and keeps the pages distinct |
| PagePreview.RemoveButton | components/pdf-page-preview.tsx:145 | the button removes its list position: the list loses exactly that page and keeps the rest in order |
| PagePreview.RemoveButtonUsesPosition | components/pdf-page-preview.tsx:145 | after two pages of a file are swapped, the first button removes the first item, while passing its page index would remove the other one |
| Ocr.TerminateOCR | utils/ocr-utils.ts:73-84 | no worker means no change; with a worker both variables are cleared, whether or not terminate throws |
| Ocr.TerminateIdempotent | utils/ocr-utils.ts:73-84 | terminating twice is terminating once, and the outcome does not depend on terminate throwing |
| Ocr.InitializeOCR | utils/ocr-utils.ts:13-33 | outside a browser nothing changes; an existing worker is returned unchanged; otherwise a fresh worker is created; it fails exactly when the needed import or creation fails, and then no worker is left, but the library stays when only creation failed |
| Ocr.InitFailureFromScratch | utils/ocr-utils.ts:28-32 | from scratch, a failed import leaves the initial state and a failed creation leaves only the imported library |
| Ocr.InitializeReusesWorker | utils/ocr-utils.ts:18-27 | once a worker exists, initialisation returns it whatever the library would do |
| Ocr.AfterLanguage | utils/ocr-utils.ts:56-61 | the language is set exactly when it is not the default, without comparing with the current one |
| Ocr.PerformOCR | utils/ocr-utils.ts:35-71 | the browser and `image/` gates fail first with their own messages and no state change; later failures all say "Failed to extract text from image"; success returns the trimmed text with the requested non-default language set; conversely, when the library loads or is loaded, a worker exists or can be created, the image reads, a non-default language can be set and recognition returns text, the call succeeds with that text trimmed; after a successful initialisation the same worker is kept even when a later step fails, while after a failed one the state is the torn-down state `initializeOCR` left, with no worker; on success the worker's language is set exactly when the requested one is not the default, and a default-language run leaves the state as initialisation left it |
| Ocr.NonImageLeavesStateAlone | utils/ocr-utils.ts:43-45 | a PDF is rejected before any worker is created |
| Ocr.FailureKeepsWorker | utils/ocr-utils.ts:67-70 | a read failure after the worker was created from scratch reports the extraction error and keeps the new worker and the loaded library |
| Ocr.LanguageIsNotReset | utils/ocr-utils.ts:56-61 | a Romanian run followed by a default-language run leaves the worker on Romanian |
| ConversionPage.RouteExtension | components/conversion-page.tsx:51 | the lower-cased text after the last dot, or the whole lower-cased name when there is no dot; never contains a dot |
| ConversionPage.RouteExtensionAgainstGetFileType | components/conversion-page.tsx:51 | with a dot and something after it the page reads the same extension as `getFileType`; after a trailing dot it reads the empty text; without a dot it reads the whole name where `getFileType` finds none |
| ConversionPage.HandleFileChange | components/conversion-page.tsx:49-62 | a rejected file changes nothing; an accepted one becomes the file, clears the result and selects the convert tab, and nothing else changes |
| ConversionPage.ApplyRouteTarget | components/conversion-page.tsx:45-47 | the target becomes the route's target and nothing else changes |
| ConversionPage.ResetConverter | components/conversion-page.tsx:64-71 | no file, no result, progress 0; target, converting flag and tab stay |
| ConversionPage.JpegRejectedOnJpgRoute | components/conversion-page.tsx:52 | a `.jpeg` file is turned away on the JPG route although it is a valid file type |
| ConversionPage.DotlessNameAcceptedThenIgnored | components/conversion-page.tsx:51-61 | a file named `jpg` passes the JPG route's gate, but has no extension, so converting it changes nothing |
| ConversionPage.AcceptedFileIsValid | components/conversion-page.tsx:51-52 | an accepted name with a dot is a valid file whose extension is the route's source format |

## Left out

- The codec, PDF and OCR libraries and the canvas encoders are not modelled. Embedding, parsing, rendering, recognising and `toDataURL` appear only through their outcomes. In the merge, re-reading and re-parsing each file and `copyPages` together form one outcome, `copySucceeds`, which fails the whole merge when false. In particular, the canvas receiving `image/jpg`, which it does not recognise, is not modelled.
- The mocked drawing in the PDF-to-image path is left out. Only its dispatch, its failure without a canvas and its naming are modelled.
- The previews come from `utils/pdf-renderer.ts`, which is not part of this model. Rendering is taken never to reject, because that renderer catches its own errors and returns a placeholder.
- Timers, async interleaving and races are left out, including two concurrent `initializeOCR` calls creating two workers. Progress while an operation runs is a number of timer firings (`ticks`).
- PdfMerger.PageProgress: the per-page load estimate is stated only as a clamp to 0..90. The estimate itself indexes `pdfFilesData` by input position, and its effect on the shown value is not modelled.
- React rendering, toasts, download links, object URLs and the clipboard copy are left out, as are the page titles and descriptions of the route table.
- The date in `merged_YYYY-MM-DD.pdf` is a parameter.
- FileConverter.FitToPage: uses exact `real` arithmetic, not IEEE-754 doubles. The page size is pdf-lib's default A4 (595.28 by 841.89 points). Images of zero width or height are excluded by the `Positive` type.
- Text.AsciiLower: lower-cases ASCII letters only, where the source's `toLowerCase` handles all of Unicode.
- PdfMerger.ReorderPages: requires the source index to be in range. For an out-of-range source the source's `splice` inserts `undefined`, which is not modelled. The only caller, the drag handler, always passes found positions.
- ConversionMap.GetAvailableConversionsForType: looks up only the four table keys. In the source, a key such as `constructor` would reach inherited object properties.
- performOCR is modelled, but nothing in the application calls it. The text routes set the target `txt`, which `convertFile` dispatches to no converter (`FileConverter.TextTargetProducesNothing`).
- A load in which one PDF fails to parse is all or nothing. The parse failure aborts the whole loop and leaves the old lists, rather than skipping that file and continuing. A failure to read a file's bytes, or of the preview library opening the document, is folded into the same parse outcome, since it too throws outside the per-page loop and aborts the load. A failed single-file conversion also keeps the earlier converted file, since neither converter clears it. The model follows the code on both points.
- Pure UI and SEO pages are left out: the file-converter tabs, the dropzone, the app pages and the structured data.

## Findings

| source | as written | input that shows it | evidently intended | confidence | as-written member | corrected member |
|---|---|---|---|---|---|---|
| hooks/usePdfMerger.tsx:74-75 | pages are tagged with the file's position in the dropped list, while the merge looks them up by position in `pdfFiles`, which skips non-PDF files | call `loadPdfFiles` with `cover.png, a.pdf, b.pdf` (one page each): the tags are 1 and 2 but `pdfFiles` has entries 0 and 1, so the lookup of b's page fails, and after removing it the merge copies b's page in place of a's. The defect is latent in the hook: the application's only file-passing caller, the dropzone, keeps only `application/pdf` files (components/pdf-dropzone.tsx:13-16), so only a caller that passes non-PDF files reaches it | tag each page with its file's position in `pdfFiles` | high for the hook, latent in the application; not executed | PdfMerger.SkippedFileShiftsLookup | PdfMerger.LoadPdfFilesCorrected |
| hooks/usePdfMerger.tsx:140-147 | `removeFile` drops entry k of `pdfFiles` but leaves the tags of later files unchanged | load `a.pdf, b.pdf` and remove file 0: b's page keeps tag 1, `pdfFiles` has one entry, and the merge fails | shift the tags of later files down by one | high, not executed | PdfMerger.RemoveFileLeavesStaleTags | PdfMerger.RemoveFileCorrected |

=== FILE: conversion_map.dfy ===
/** The conversion capability table (utils/conversion-map.ts): which file
    type may be converted to which others. */
module ConversionMap {
  import opened Wrappers
  import opened FileUtils

  /** `conversionMap[source]`, with the source's target order. */
  function Targets(source: FileType): seq<FileType> {
    match source
    case Pdf => []
    case Jpg => [Pdf, Png]
    case Jpeg => [Pdf, Png]
    case Png => [Pdf, Jpg]
  }

  /** The same table read as a set of (source, target) edges; the
      reference against which the lookups below are stated. */
  const Edges: set<(FileType, FileType)> :=
    {(Jpg, Pdf), (Jpg, Png), (Jpeg, Pdf), (Jpeg, Png), (Png, Pdf), (Png, Jpg)}

  /** `getAvailableConversionsForType`: the table row of a type text, and
      `[]` for a text that names no type (the `|| []` fallback). */
  function GetAvailableConversionsForType(sourceType: string): (r: seq<FileType>)
    ensures ParseFileType(sourceType).None? ==> r == []
    ensures forall t :: t in r <==>
              ParseFileType(sourceType).Some? && (ParseFileType(sourceType).value, t) in Edges
  {
    match ParseFileType(sourceType)
    case None => []
    case Some(t) => Targets(t)
  }

  /** `isConversionSupported`: membership in the table row. */
  function IsConversionSupported(source: FileType, target: FileType): (r: bool)
    ensures r <==> (source, target) in Edges
  {
    target in Targets(source)
  }

  /** `getAvailableConversions`: classify the name, then look its row up. */
  function GetAvailableConversions(fileName: string): (r: seq<FileType>)
    ensures GetFileType(fileName).None? ==> r == []
    ensures forall t :: t in r <==>
              ClassifyFile(fileName).Some? && IsConversionSupported(ClassifyFile(fileName).value, t)
    ensures GetFileType(fileName).Some? ==> r == GetAvailableConversionsForType(GetFileType(fileName).value)
    ensures ClassifyFile(fileName).Some? ==> r == Targets(ClassifyFile(fileName).value)
  {
    match GetFileType(fileName)
    case None => []
    case Some(ext) => GetAvailableConversionsForType(ext)
  }

  /** The rows exactly as declared, order included, and the documented
      examples of `isConversionSupported`. */
  lemma TableRows()
    ensures GetAvailableConversionsForType("pdf") == []
    ensures GetAvailableConversionsForType("jpg") == [Pdf, Png]
    ensures GetAvailableConversionsForType("jpeg") == [Pdf, Png]
    ensures GetAvailableConversionsForType("png") == [Pdf, Jpg]
    ensures IsConversionSupported(Jpg, Pdf)
    ensures !IsConversionSupported(Pdf, Jpg)
  {
  }

  /** Every listed target passes the membership check. */
  lemma ListedTargetsAreSupported(source: FileType)
    ensures forall t :: t in GetAvailableConversionsForType(Name(source)) ==> IsConversionSupported(source, t)
  {
    ParseFileTypeRoundTrip(source);
  }

  /** Shape of the graph: no self-edge, nothing converts into jpeg, and
      pdf converts into nothing. */
  lemma TableShape(s: FileType, t: FileType)
    ensures IsConversionSupported(s, t) ==> s != t
    ensures !IsConversionSupported(s, Jpeg)
    ensures !IsConversionSupported(Pdf, t)
  {
  }

  /** A bare extension has no dot, so it has no available conversions,
      even when it names a convertible type. */
  lemma BareExtensionHasNoConversions()
    ensures GetAvailableConversions("jpg") == []
  {
    assert '.' !in "jpg";
  }
}

=== FILE: conversion_page.dfy ===
/** The upload gate of a single-route conversion page
    (components/conversion-page.tsx).  The page forces the converter's
    target to the route's target and accepts an upload only when the
    lower-cased last dot-separated segment of its name is the route's
    source format.  That test is close to, but not the same as, the
    extension rule of `getFileType`. */
module ConversionPage {
  import opened Wrappers
  import opened Text
  import opened FileUtils
  import ConversionRoutes
  import FileConverter

  datatype Tab = Upload | Convert

  /** The page's state: the converter hook's state and the selected tab. */
  datatype PageState = PageState(converter: FileConverter.ConverterState, activeTab: Tab)

  const InitialPage: PageState := PageState(FileConverter.InitialState, Upload)

  /** `name.split(".").pop().toLowerCase()`: the lower-cased text after the
      last dot, or the whole lower-cased name when it has no dot. */
  function RouteExtension(fileName: string): (r: string)
    ensures '.' !in r
    ensures |r| <= |fileName|
    ensures '.' !in fileName ==> r == AsciiLower(fileName)
    ensures '.' in fileName ==>
              && |r| < |fileName|
              && fileName[|fileName| - |r| - 1] == '.'
              && r == AsciiLower(fileName[|fileName| - |r|..])
  {
    var segment := LastSegment(fileName, '.');
    AsciiLowerKeepsChar(segment, '.');
    if '.' !in fileName then
      LastSegmentWithout(fileName, '.');
      AsciiLower(segment)
    else AsciiLower(segment)
  }

  /** Whether `handleFileChange` accepts a file of this name on this route. */
  predicate Accepts(route: ConversionRoutes.Route, fileName: string) {
    RouteExtension(fileName) == route.sourceFormat
  }

  /** For a name with a dot and something after it, the page's test reads
      the same extension as `getFileType`; a name ending in a dot gives the
      empty extension; a name without a dot is taken whole, where
      `getFileType` finds no extension at all. */
  lemma RouteExtensionAgainstGetFileType(fileName: string)
    ensures '.' in fileName && fileName[|fileName| - 1] != '.' ==>
              GetFileType(fileName) == Some(RouteExtension(fileName))
    ensures '.' in fileName && fileName[|fileName| - 1] == '.' ==>
              RouteExtension(fileName) == [] && GetFileType(fileName) == None
    ensures '.' !in fileName ==>
              RouteExtension(fileName) == AsciiLower(fileName) && GetFileType(fileName) == None
  {
    if '.' in fileName {
      AsciiLowerEmpty(LastSegment(fileName, '.'));
    }
  }

  /** `handleFileChange`: a rejected file changes nothing (only a toast is
      shown); an accepted one becomes the converter's file, drops any
      earlier result and switches to the convert tab. */
  function HandleFileChange(route: ConversionRoutes.Route, s: PageState, file: FileConverter.SourceFile): (r: PageState)
    ensures !Accepts(route, file.name) ==> r == s
    ensures Accepts(route, file.name) ==>
              && r.converter.file == Some(file)
              && r.converter.convertedFile.None?
              && r.activeTab == Convert
              && r.converter.targetFormat == s.converter.targetFormat
              && r.converter.isConverting == s.converter.isConverting
              && r.converter.progress == s.converter.progress
  {
    if !Accepts(route, file.name) then s
    else PageState(s.converter.(file := Some(file), convertedFile := None), Convert)
  }

  /** The effect keyed on the route: the converter's target becomes the
      route's target and nothing else changes. */
  function ApplyRouteTarget(route: ConversionRoutes.Route, s: PageState): (r: PageState)
    ensures r.converter.targetFormat == route.targetFormat
    ensures r.converter.file == s.converter.file && r.converter.convertedFile == s.converter.convertedFile
    ensures r.converter.isConverting == s.converter.isConverting && r.converter.progress == s.converter.progress
    ensures r.activeTab == s.activeTab
  {
    s.(converter := s.converter.(targetFormat := route.targetFormat))
  }

  /** `resetConverter`: no file, no result, progress back to 0; the tab
      and the target stay. */
  function ResetConverter(s: PageState): (r: PageState)
    ensures r.converter.file.None? && r.converter.convertedFile.None? && r.converter.progress == 0
    ensures r.converter.targetFormat == s.converter.targetFormat
    ensures r.converter.isConverting == s.converter.isConverting
    ensures r.activeTab == s.activeTab
  {
    s.(converter := s.converter.(file := None, convertedFile := None, progress := 0))
  }

  /** The page's test on a name split at a dot reads the lower-cased text
      after it. */
  lemma RouteExtensionOfSplit(stem: string, ext: string)
    requires '.' !in ext
    ensures RouteExtension(stem + "." + ext) == AsciiLower(ext)
  {
    LastSegmentAfter(stem, '.', ext);
    assert (stem + "." + ext)[|stem|] == '.';
  }

  /** The first route converts JPG to PDF. */
  lemma FirstRouteIsJpg()
    ensures ConversionRoutes.ConversionRoutes[0].sourceFormat == "jpg"
    ensures ConversionRoutes.ConversionRoutes[0].targetFormat == "pdf"
  {
  }

  /** The JPG routes compare exactly, so a `.jpeg` upload is turned away
      even though the converter supports JPEG sources. */
  lemma JpegRejectedOnJpgRoute(s: PageState, stem: string, mimeType: string)
    ensures var route := ConversionRoutes.ConversionRoutes[0];
            var file := FileConverter.SourceFile(stem + ".jpeg", mimeType);
            && !Accepts(route, file.name)
            && HandleFileChange(route, s, file) == s
            && IsValidFileType(file.name)
  {
    FirstRouteIsJpg();
    assert stem + ".jpeg" == stem + "." + "jpeg";
    RouteExtensionOfSplit(stem, "jpeg");
    AsciiLowerOfLower("jpeg");
    assert RouteExtension(stem + ".jpeg") == "jpeg";
    assert "jpeg" != "jpg";
    JpegIsValid(stem);
  }

  lemma JpegIsValid(stem: string)
    ensures IsValidFileType(stem + ".jpeg")
  {
    assert stem + ".jpeg" == stem + "." + "jpeg";
    GetFileTypeOfSplit(stem, "jpeg");
    AsciiLowerOfLower("jpeg");
    assert GetFileType(stem + ".jpeg") == Some("jpeg");
    IsValidFileTypeExactly(stem + ".jpeg");
  }

  /** A file named just `jpg` passes the JPG route's gate, but
      `getFileType` finds no extension in it, so converting it afterwards
      silently does nothing. */
  lemma DotlessNameAcceptedThenIgnored(s: PageState, mimeType: string, env: FileConverter.ConverterEnv)
    ensures var route := ConversionRoutes.ConversionRoutes[0];
            var file := FileConverter.SourceFile("jpg", mimeType);
            var accepted := HandleFileChange(route, s, file);
            && Accepts(route, file.name)
            && accepted.converter.file == Some(file)
            && GetFileType(file.name) == None
            && FileConverter.ConvertFile(accepted.converter, env) == accepted.converter
  {
    FirstRouteIsJpg();
    AsciiLowerOfLower("jpg");
    assert '.' !in "jpg";
  }

  /** Every route's source format is a supported extension, so a file the
      page accepts and whose name has a dot is a valid file for the
      converter. */
  lemma AcceptedFileIsValid(i: nat, fileName: string)
    requires i < |ConversionRoutes.ConversionRoutes|
    requires '.' in fileName && Accepts(ConversionRoutes.ConversionRoutes[i], fileName)
    ensures IsValidFileType(fileName)
    ensures GetFileType(fileName) == Some(ConversionRoutes.ConversionRoutes[i].sourceFormat)
  {
    var route := ConversionRoutes.ConversionRoutes[i];
    assert route.sourceFormat == "jpg" || route.sourceFormat == "png";
    RouteExtensionAgainstGetFileType(fileName);
    var r := RouteExtension(fileName);
    assert |r| == 3;
    assert r[2] == LowerChar(fileName[|fileName| - 1]);
    assert fileName[|fileName| - 1] != '.';
    assert SupportedExtensions[0] == "jpg" && SupportedExtensions[2] == "png";
  }
}

=== FILE: conversion_routes.dfy ===
/** The landing-page routes, one per advertised conversion
    (lib/conversion-routes.ts). */
module ConversionRoutes {
  import opened Wrappers
  import opened Text
  import opened FileUtils
  import opened ConversionMap

  /** One route record.  Format fields are texts: the text-extraction
      routes use the target "txt", which is not a file type. */
  datatype Route = Route(
    id: string,
    sourceFormat: string,
    targetFormat: string,
    path: string,
    sourceFormatName: string,
    targetFormatName: string)

  /** `conversionRoutes`; the two pdf-source routes are commented out in
      the source and so are absent here. */
  const ConversionRoutes: seq<Route> := [
    Route("jpg-to-pdf", "jpg", "pdf", "/convert/jpg-to-pdf", "JPG", "PDF"),
    Route("png-to-pdf", "png", "pdf", "/convert/png-to-pdf", "PNG", "PDF"),
    Route("jpg-to-png", "jpg", "png", "/convert/jpg-to-png", "JPG", "PNG"),
    Route("png-to-jpg", "png", "jpg", "/convert/png-to-jpg", "PNG", "JPG"),
    Route("jpg-to-txt", "jpg", "txt", "/convert/jpg-to-txt", "JPG", "Text"),
    Route("png-to-txt", "png", "txt", "/convert/png-to-txt", "PNG", "Text")
  ]

  const PathPrefix: string := "/convert/"

  /** `Array.prototype.find` on the id: the first route carrying it. */
  function FindById(routes: seq<Route>, id: string): (r: Option<Route>)
    ensures r.None? <==> forall i :: 0 <= i < |routes| ==> routes[i].id != id
    ensures r.Some? ==> exists i :: 0 <= i < |routes| && routes[i] == r.value
                                   && r.value.id == id
                                   && forall k :: 0 <= k < i ==> routes[k].id != id
    decreases |routes|
  {
    if |routes| == 0 then None
    else if routes[0].id == id then Some(routes[0])
    else
      var r := FindById(routes[1..], id);
      assert forall i :: 1 <= i < |routes| ==> routes[i] == routes[1..][i - 1];
      r
  }

  /** `getConversionFromPath`: the route whose id is the path's last
      `/`-segment. */
  function GetConversionFromPath(path: string): (r: Option<Route>)
    ensures r.Some? ==> r.value in ConversionRoutes && r.value.id == LastSegment(path, '/')
    ensures r.None? ==> forall i :: 0 <= i < |ConversionRoutes| ==> ConversionRoutes[i].id != LastSegment(path, '/')
  {
    FindById(ConversionRoutes, LastSegment(path, '/'))
  }

  /** `getAllConversionPaths`: the paths, in table order. */
  function GetAllConversionPaths(): (r: seq<string>)
    ensures |r| == |ConversionRoutes|
    ensures forall i :: 0 <= i < |r| ==> GetConversionFromPath(r[i]) == Some(ConversionRoutes[i])
    ensures forall i :: 0 <= i < |r| ==> r[i] == PathPrefix + ConversionRoutes[i].id
  {
    RoutePathsArePrefixedIds();
    AllPathsRoundTrip();
    seq(|ConversionRoutes|, i requires 0 <= i < |ConversionRoutes| => ConversionRoutes[i].path)
  }

  /** Ids are pairwise distinct, no id contains `/`, and every path is the
      prefix followed by the id. */
  predicate WellFormedRoutes(routes: seq<Route>) {
    && (forall i, j :: 0 <= i < j < |routes| ==> routes[i].id != routes[j].id)
    && (forall i :: 0 <= i < |routes| ==> '/' !in routes[i].id)
    && (forall i :: 0 <= i < |routes| ==> routes[i].path == PathPrefix + routes[i].id)
  }

  lemma RoutesWellFormed()
    ensures WellFormedRoutes(ConversionRoutes)
  {
    RouteIdsDistinct();
    RoutePathsArePrefixedIds();
  }

  lemma RouteIdsDistinct()
    ensures forall i, j :: 0 <= i < j < |ConversionRoutes| ==> ConversionRoutes[i].id != ConversionRoutes[j].id
  {
    var rs := ConversionRoutes;
    forall i, j | 0 <= i < j < |rs| ensures rs[i].id != rs[j].id {
      // the ids differ at position 0, 7 or 8
      var a, b := rs[i].id, rs[j].id;
      assert a[0] != b[0] || a[7] != b[7] || a[8] != b[8];
    }
  }

  lemma RoutePathsArePrefixedIds()
    ensures forall i :: 0 <= i < |ConversionRoutes| ==> '/' !in ConversionRoutes[i].id
    ensures forall i :: 0 <= i < |ConversionRoutes| ==> ConversionRoutes[i].path == PathPrefix + ConversionRoutes[i].id
  {
    RouteIdsHaveNoSlash();
    var rs := ConversionRoutes;
    forall i | 0 <= i < |rs| ensures rs[i].path == PathPrefix + rs[i].id {
      RoutePathAt(i);
    }
  }

  lemma RoutePathAt(i: nat)
    requires i < |ConversionRoutes|
    ensures ConversionRoutes[i].path == PathPrefix + ConversionRoutes[i].id
  {
    var r := ConversionRoutes[i];
    assert r.path[..|PathPrefix|] == PathPrefix;
    assert r.path[|PathPrefix|..] == r.id;
    assert r.path == r.path[..|PathPrefix|] + r.path[|PathPrefix|..];
  }

  lemma RouteIdsHaveNoSlash()
    ensures forall i :: 0 <= i < |ConversionRoutes| ==> '/' !in ConversionRoutes[i].id
  {
    forall i | 0 <= i < |ConversionRoutes| ensures '/' !in ConversionRoutes[i].id {
      var id := ConversionRoutes[i].id;
      assert |id| == 10;
      forall k | 0 <= k < 10 ensures id[k] != '/' {
      }
    }
  }

  /** With distinct ids, looking up a route's id finds that route. */
  lemma FindByIdFindsMember(routes: seq<Route>, i: nat)
    requires i < |routes|
    requires forall a, b :: 0 <= a < b < |routes| ==> routes[a].id != routes[b].id
    ensures FindById(routes, routes[i].id) == Some(routes[i])
  {
  }

  /** Round trip: every route's path leads back to that route. */
  lemma RouteRoundTrip(i: nat)
    requires i < |ConversionRoutes|
    ensures GetConversionFromPath(ConversionRoutes[i].path) == Some(ConversionRoutes[i])
  {
    RoutesWellFormed();
    var r := ConversionRoutes[i];
    assert r.path == "/convert" + "/" + r.id;
    LastSegmentAfter("/convert", '/', r.id);
    FindByIdFindsMember(ConversionRoutes, i);
  }

  lemma AllPathsRoundTrip()
    ensures forall i :: 0 <= i < |ConversionRoutes| ==>
              GetConversionFromPath(ConversionRoutes[i].path) == Some(ConversionRoutes[i])
  {
    forall i | 0 <= i < |ConversionRoutes| {
      RouteRoundTrip(i);
    }
  }

  /** A path ending in `/` has an empty last segment, which is no id. */
  lemma TrailingSlashFindsNothing(prefix: string)
    ensures GetConversionFromPath(prefix + "/") == None
  {
    RoutesWellFormed();
    forall i | 0 <= i < |ConversionRoutes| ensures ConversionRoutes[i].id != [] {
      assert |ConversionRoutes[i].id| > 0;
    }
  }

  /** No route starts from pdf. */
  lemma NoPdfSourceRoute()
    ensures forall i :: 0 <= i < |ConversionRoutes| ==> ConversionRoutes[i].sourceFormat != "pdf"
  {
  }

  /** Every route not targeting text is an edge of the capability table. */
  lemma RoutesAgreeWithCapabilityTable()
    ensures forall i :: 0 <= i < |ConversionRoutes| && ConversionRoutes[i].targetFormat != "txt" ==>
              && ParseFileType(ConversionRoutes[i].sourceFormat).Some?
              && ParseFileType(ConversionRoutes[i].targetFormat).Some?
              && IsConversionSupported(ParseFileType(ConversionRoutes[i].sourceFormat).value,
                                       ParseFileType(ConversionRoutes[i].targetFormat).value)
  {
  }
}

=== FILE: file_converter.dfy ===
/** Single-file conversion (hooks/useFileConverter.tsx): the progress
    ticker, fit-to-page geometry, embedder choice, output naming, the
    type-by-target dispatch and the exit paths of `convertFile`.  Library
    and browser calls are replaced by the outcomes recorded in
    `ConverterEnv`. */
module FileConverter {
  import opened Wrappers
  import opened Text
  import opened FileUtils
  import opened ConversionMap

  // ---------------------------------------------------------------------
  // Progress ticker

  /** `updateProgress`: one tick of the progress timer. */
  function UpdateProgress(prev: int): (r: int)
    ensures prev < 90 ==> r == prev + 10
    ensures prev >= 90 ==> r == 90
    ensures 0 <= prev <= 90 && prev % 10 == 0 ==> 0 <= r <= 90 && r % 10 == 0
  {
    if prev >= 90 then 90 else prev + 10
  }

  /** The progress shown after the timer fired `ticks` times from 0. */
  function ProgressAfter(ticks: nat): (r: int)
    ensures 0 <= r <= 90 && r % 10 == 0
    decreases ticks
  {
    if ticks == 0 then 0 else UpdateProgress(ProgressAfter(ticks - 1))
  }

  /** Ticking from 0 visits 0, 10, ..., 90 and then stays at 90. */
  lemma {:induction false} ProgressAfterTicks(ticks: nat)
    ensures ProgressAfter(ticks) == if ticks < 9 then 10 * ticks else 90
    decreases ticks
  {
    if ticks > 0 {
      ProgressAfterTicks(ticks - 1);
    }
  }

  /** The ticker never moves backwards. */
  lemma ProgressMonotone(a: nat, b: nat)
    requires a <= b
    ensures ProgressAfter(a) <= ProgressAfter(b)
  {
    ProgressAfterTicks(a);
    ProgressAfterTicks(b);
  }

  // ---------------------------------------------------------------------
  // Fit-to-page geometry, in exact arithmetic

  type Positive = r: real | r > 0.0 witness 1.0

  datatype Size = Size(width: Positive, height: Positive)

  /** Where and how large the image is drawn on the page. */
  datatype Placement = Placement(x: real, y: real, width: real, height: real)

  /** pdf-lib's page size for `addPage()` without arguments (A4 in points). */
  const DefaultPage: Size := Size(595.28, 841.89)

  function MinReal(a: real, b: real): real {
    if a <= b then a else b
  }

  /** Fit the image to the page: scale to the page width, and if that is
      too tall, to the page height instead; then centre it.  The result is
      the uniform scale `min(pageW/imgW, pageH/imgH)`: it keeps the aspect
      ratio, fits, touches one pair of page edges, and leaves equal margins
      on opposite sides. */
  function FitToPage(image: Size, page: Size): (p: Placement)
    ensures 0.0 < p.width <= page.width && 0.0 < p.height <= page.height
    ensures p.width * image.height == p.height * image.width
    ensures p.width == page.width || p.height == page.height
    ensures var scale := MinReal(page.width / image.width, page.height / image.height);
            p.width == image.width * scale && p.height == image.height * scale
    ensures p.x >= 0.0 && p.y >= 0.0
    ensures p.x + p.width + p.x == page.width && p.y + p.height + p.y == page.height
  {
    var aspectRatio := image.width / image.height;
    var heightAtFullWidth := page.width / aspectRatio;
    FitArithmetic(image.width, image.height, page.width, page.height);
    if heightAtFullWidth > page.height then
      var scaledWidth := page.height * aspectRatio;
      Placement((page.width - scaledWidth) / 2.0, (page.height - page.height) / 2.0, scaledWidth, page.height)
    else
      Placement((page.width - page.width) / 2.0, (page.height - heightAtFullWidth) / 2.0, page.width, heightAtFullWidth)
  }

  /** The real-arithmetic facts behind `FitToPage`, for both branches. */
  lemma FitArithmetic(iw: real, ih: real, pw: real, ph: real)
    requires iw > 0.0 && ih > 0.0 && pw > 0.0 && ph > 0.0
    ensures var a := iw / ih;
            && a > 0.0
            && pw / a == pw * ih / iw
            && ph * a == ph * iw / ih
            && (pw / a > ph <==> pw / iw > ph / ih)
            && (pw / a > ph ==> 0.0 < ph * a < pw)
            && (pw / a <= ph ==> 0.0 < pw / a)
            && (pw / a) * ih == pw * (ih / iw) * ih
            && pw * ih == (pw / a) * iw
            && (ph * a) * ih == ph * iw
            && ph * a == iw * (ph / ih)
            && pw / a == ih * (pw / iw)
  {
    var a := iw / ih;
    assert a * ih == iw;
    assert pw / a == pw * ih / iw;
    FitComparison(iw, ih, pw, ph);
  }

  lemma FitComparison(iw: real, ih: real, pw: real, ph: real)
    requires iw > 0.0 && ih > 0.0 && pw > 0.0 && ph > 0.0
    ensures pw * ih / iw > ph <==> pw / iw > ph / ih
  {
    assert (pw * ih / iw > ph <==> pw * ih > ph * iw);
    assert (pw / iw > ph / ih <==> pw * ih > ph * iw) by {
      assert pw / iw * (iw * ih) == pw * ih;
      assert ph / ih * (iw * ih) == ph * iw;
    }
  }

  lemma FitWideImage()
    ensures var p := FitToPage(Size(2000.0, 1000.0), DefaultPage);
            p.width == DefaultPage.width && p.height < DefaultPage.height
            && p.y == (DefaultPage.height - p.height) / 2.0
  {
  }

  lemma FitTallImage()
    ensures var p := FitToPage(Size(1000.0, 2000.0), DefaultPage);
            p.height == DefaultPage.height && p.width < DefaultPage.width
            && p.x == (DefaultPage.width - p.width) / 2.0
  {
  }

  // ---------------------------------------------------------------------
  // Embedder choice and output naming

  datatype ImageFormat = JpegImage | PngImage

  /** The embed call is chosen by the file's MIME type, not its extension. */
  function EmbedderFor(mimeType: string): (r: Result<ImageFormat>)
    ensures r == Ok(JpegImage) <==> mimeType == "image/jpeg"
    ensures r == Ok(PngImage) <==> mimeType == "image/png"
    ensures r.Err? <==> mimeType != "image/jpeg" && mimeType != "image/png"
    ensures r.Err? ==> r.message == "Unsupported image format"
  {
    if mimeType == "image/jpeg" then Ok(JpegImage)
    else if mimeType == "image/png" then Ok(PngImage)
    else Err("Unsupported image format")
  }

  /** `file.name.split(".")[0]` followed by `.` and the new extension. */
  function OutputName(fileName: string, format: string): (r: string)
    ensures |r| > |format|
    ensures var stem := r[..|r| - |format| - 1];
            && r[|r| - |format| - 1] == '.' && r[|r| - |format|..] == format
            && '.' !in stem
            && StartsWith(fileName, stem)
            && (|stem| < |fileName| ==> fileName[|stem|] == '.')
  {
    var stem := FirstSegment(fileName, '.');
    var r := stem + "." + format;
    assert r[..|r| - |format| - 1] == stem;
    r
  }

  /** With a dot-free format the output's extension is exactly that format. */
  lemma OutputNameExtension(fileName: string, format: string)
    requires '.' !in format && format != []
    ensures GetFileType(OutputName(fileName, format)) == Some(AsciiLower(format))
  {
    var r := OutputName(fileName, format);
    assert r == r[..|r| - |format| - 1] + "." + format;
    GetFileTypeOfSplit(r[..|r| - |format| - 1], format);
  }

  /** Only the text before the first dot survives: `holiday.photo.png`
      converted to pdf is named `holiday.pdf`. */
  lemma OutputNameKeepsFirstSegment(stem: string, rest: string, format: string)
    requires '.' !in stem
    ensures OutputName(stem + "." + rest, format) == stem + "." + format
  {
    FirstSegmentBefore(stem, '.', rest);
  }

  // ---------------------------------------------------------------------
  // Conversion state and dispatch

  /** The uploaded file: its name and the MIME type the browser reports. */
  datatype SourceFile = SourceFile(name: string, mimeType: string)

  /** What a converted file holds: a one-page PDF with the image drawn at
      `placement`, or a canvas data URL requested with `mimeType`. */
  datatype Output =
    | PdfWithImage(embedded: ImageFormat, placement: Placement)
    | ImageDataUrl(mimeType: string)

  datatype ConvertedFile = ConvertedFile(name: string, output: Output)

  /** The hook's state. */
  datatype ConverterState = ConverterState(
    file: Option<SourceFile>,
    convertedFile: Option<ConvertedFile>,
    targetFormat: string,
    isConverting: bool,
    progress: int)

  const InitialState: ConverterState := ConverterState(None, None, "png", false, 0)

  /** The outcomes of the browser and library calls a conversion makes. */
  datatype ConverterEnv = ConverterEnv(
    canvasAvailable: bool,        // a 2D canvas context could be obtained
    readSucceeds: bool,           // the FileReader read the file
    embeddedImage: Option<Size>,  // pdf-lib's embed: the decoded size, or a rejection
    saveSucceeds: bool,           // pdf-lib serialised the document
    imageLoads: bool,             // the browser decoded the data URL into an image
    ticks: nat)                   // progress-timer firings before the conversion settled

  datatype Converter = PdfToImage | ImageToPdf | ImageToImage | NoConverter

  predicate IsImageTarget(target: string) {
    target == "jpg" || target == "png"
  }

  /** The `switch` in `convertFile`.  It does not consult the capability
      table. */
  function Dispatch(source: FileType, target: string): (c: Converter)
    ensures c == PdfToImage <==> source == Pdf && IsImageTarget(target)
    ensures c == ImageToPdf <==> source != Pdf && target == "pdf"
    ensures c == ImageToImage <==> source != Pdf && IsImageTarget(target)
    ensures c == NoConverter <==> !IsImageTarget(target) && (source == Pdf || target != "pdf")
  {
    match source
    case Pdf => if IsImageTarget(target) then PdfToImage else NoConverter
    case _ => if target == "pdf" then ImageToPdf else if IsImageTarget(target) then ImageToImage else NoConverter
  }

  /** Dispatch runs converters the capability table does not list: an image
      to its own format, and pdf to an image. */
  lemma DispatchIgnoresCapabilityTable()
    ensures Dispatch(Png, "png") == ImageToImage && !IsConversionSupported(Png, Png)
    ensures Dispatch(Jpeg, "jpg") == ImageToImage && !IsConversionSupported(Jpeg, Jpg)
    ensures Dispatch(Pdf, "jpg") == PdfToImage && !IsConversionSupported(Pdf, Jpg)
  {
  }

  /** Every table edge whose target is an image or pdf is dispatched to a
      converter. */
  lemma SupportedConversionsAreDispatched(s: FileType, t: FileType)
    requires IsConversionSupported(s, t)
    ensures Dispatch(s, Name(t)) != NoConverter
  {
  }

  /** `convertImageToPdf`; `None` when any step threw, since it catches
      its own errors. */
  function ConvertImageToPdf(file: SourceFile, fileName: string, env: ConverterEnv): (r: Option<ConvertedFile>)
    ensures r.Some? <==>
              env.readSucceeds && EmbedderFor(file.mimeType).Ok? && env.embeddedImage.Some? && env.saveSucceeds
    ensures r.Some? ==>
              && r.value.name == fileName + ".pdf"
              && r.value.output == PdfWithImage(EmbedderFor(file.mimeType).value,
                                                FitToPage(env.embeddedImage.value, DefaultPage))
  {
    if !env.readSucceeds then None
    else match EmbedderFor(file.mimeType)
      case Err(_) => None
      case Ok(format) =>
        match env.embeddedImage
        case None => None
        case Some(size) =>
          var placement := FitToPage(size, DefaultPage);
          if !env.saveSucceeds then None
          else Some(ConvertedFile(fileName + ".pdf", PdfWithImage(format, placement)))
  }

  /** `convertImageToImage`; `None` when any step threw. */
  function ConvertImageToImage(fileName: string, format: string, env: ConverterEnv): (r: Option<ConvertedFile>)
    ensures r.Some? <==> env.readSucceeds && env.imageLoads && env.canvasAvailable
    ensures r.Some? ==> r.value == ConvertedFile(fileName + "." + format, ImageDataUrl("image/" + format))
  {
    if env.readSucceeds && env.imageLoads && env.canvasAvailable then
      Some(ConvertedFile(fileName + "." + format, ImageDataUrl("image/" + format)))
    else None
  }

  /** The converted file the conversion of `file` to `target` produces, or
      `None` when none is produced; the flag says whether an error
      escaped to `convertFile` itself (only the pdf mock lets one escape). */
  function RunConverter(file: SourceFile, source: FileType, target: string, env: ConverterEnv): (r: (Option<ConvertedFile>, bool))
    ensures r.1 <==> Dispatch(source, target) == PdfToImage && !env.canvasAvailable
    ensures r.0.Some? ==> !r.1 && Dispatch(source, target) != NoConverter
    ensures r.0.Some? ==> r.0.value.name == OutputName(file.name, target)
    ensures Dispatch(source, target) == NoConverter ==> r.0.None?
    ensures Dispatch(source, target) == PdfToImage ==>
              && (r.0.Some? <==> env.canvasAvailable)
              && (r.0.Some? ==> r.0.value.output == ImageDataUrl("image/" + target))
    ensures Dispatch(source, target) == ImageToPdf ==>
              r.0 == ConvertImageToPdf(file, FirstSegment(file.name, '.'), env)
    ensures Dispatch(source, target) == ImageToImage ==>
              r.0 == ConvertImageToImage(FirstSegment(file.name, '.'), target, env)
  {
    var fileName := FirstSegment(file.name, '.');
    match Dispatch(source, target)
    case PdfToImage =>
      if env.canvasAvailable then (Some(ConvertedFile(fileName + "." + target, ImageDataUrl("image/" + target))), false)
      else (None, true)
    case ImageToPdf => (ConvertImageToPdf(file, fileName, env), false)
    case ImageToImage => (ConvertImageToImage(fileName, target, env), false)
    case NoConverter => (None, false)
  }

  /** `convertFile`.  Without a file, or with an unsupported extension, it
      returns before touching any state.  Otherwise it always ends with
      `isConverting` false; progress is 100 unless an error escaped, in
      which case it is wherever the timer had got to; a converted file is
      replaced only when one was produced. */
  function ConvertFile(s: ConverterState, env: ConverterEnv): (r: ConverterState)
    ensures s.file.None? || !IsValidFileType(s.file.value.name) ==> r == s
    ensures s.file.Some? && IsValidFileType(s.file.value.name) ==>
              && !r.isConverting
              && r.file == s.file && r.targetFormat == s.targetFormat
              && (r.progress == 100 || (0 <= r.progress <= 90 && r.convertedFile == s.convertedFile))
    ensures r.convertedFile != s.convertedFile ==>
              && r.progress == 100
              && r.convertedFile.Some? && s.file.Some?
              && r.convertedFile.value.name == OutputName(s.file.value.name, s.targetFormat)
    ensures s.file.Some? && IsValidFileType(s.file.value.name) ==>
              var run := RunConverter(s.file.value, ClassifyFile(s.file.value.name).value, s.targetFormat, env);
              && (!run.1 ==> r.progress == 100)
              && (run.1 ==> r.progress == ProgressAfter(env.ticks))
              && (run.0.Some? ==> r.convertedFile == run.0)
              && (run.0.None? ==> r.convertedFile == s.convertedFile)
  {
    match s.file
    case None => s
    case Some(file) =>
      match ClassifyFile(file.name)
      case None => s
      case Some(source) =>
        var (produced, escaped) := RunConverter(file, source, s.targetFormat, env);
        if escaped then
          s.(isConverting := false, progress := ProgressAfter(env.ticks))
        else
          var converted := if produced.Some? then produced else s.convertedFile;
          s.(convertedFile := converted, isConverting := false, progress := 100)
  }

  /** An image-to-PDF conversion whose embedding fails still reports 100%
      and leaves the previous converted file in place. */
  lemma EmbedFailureIsSwallowed(s: ConverterState, env: ConverterEnv)
    requires s.file.Some? && ClassifyFile(s.file.value.name).Some?
    requires ClassifyFile(s.file.value.name).value != Pdf && s.targetFormat == "pdf"
    requires env.embeddedImage.None?
    ensures ConvertFile(s, env).progress == 100
    ensures ConvertFile(s, env).convertedFile == s.convertedFile
    ensures !ConvertFile(s, env).isConverting
  {
  }

  /** Image to PDF always names its output after the stem with `.pdf`. */
  lemma ImageToPdfOutputIsPdf(s: ConverterState, env: ConverterEnv)
    requires s.file.Some? && s.targetFormat == "pdf"
    requires ConvertFile(s, env).convertedFile != s.convertedFile
    ensures GetFileType(ConvertFile(s, env).convertedFile.value.name) == Some("pdf")
  {
    PdfOutputNameExtension(s.file.value.name);
  }

  lemma PdfOutputNameExtension(fileName: string)
    ensures GetFileType(OutputName(fileName, "pdf")) == Some("pdf")
  {
    OutputNameExtension(fileName, "pdf");
    AsciiLowerOfLower("pdf");
  }

  /** A JPEG or PNG upload converted to pdf, with every library step
      working, stores the one-page PDF named after the stem and reports
      100%. */
  lemma ImageToPdfSucceeds(s: ConverterState, env: ConverterEnv, size: Size)
    requires s.file.Some? && ClassifyFile(s.file.value.name).Some?
    requires ClassifyFile(s.file.value.name).value != Pdf && s.targetFormat == "pdf"
    requires s.file.value.mimeType == "image/jpeg" || s.file.value.mimeType == "image/png"
    requires env.readSucceeds && env.embeddedImage == Some(size) && env.saveSucceeds
    ensures var r := ConvertFile(s, env);
            && r.progress == 100 && !r.isConverting
            && r.convertedFile == Some(ConvertedFile(OutputName(s.file.value.name, "pdf"),
                                                     PdfWithImage(EmbedderFor(s.file.value.mimeType).value,
                                                                  FitToPage(size, DefaultPage))))
  {
    var file := s.file.value;
    var run := RunConverter(file, ClassifyFile(file.name).value, "pdf", env);
    assert Dispatch(ClassifyFile(file.name).value, "pdf") == ImageToPdf;
    assert run.0.Some?;
  }

  /** An image converted to jpg or png, with reading, decoding and the
      canvas working, stores the data URL of the requested type. */
  lemma ImageToImageSucceeds(s: ConverterState, env: ConverterEnv)
    requires s.file.Some? && ClassifyFile(s.file.value.name).Some?
    requires ClassifyFile(s.file.value.name).value != Pdf && IsImageTarget(s.targetFormat)
    requires env.readSucceeds && env.imageLoads && env.canvasAvailable
    ensures var r := ConvertFile(s, env);
            && r.progress == 100 && !r.isConverting
            && r.convertedFile == Some(ConvertedFile(OutputName(s.file.value.name, s.targetFormat),
                                                     ImageDataUrl("image/" + s.targetFormat)))
  {
    var file := s.file.value;
    assert Dispatch(ClassifyFile(file.name).value, s.targetFormat) == ImageToImage;
  }

  /** Text targets (set by the OCR routes) reach no converter: the run
      reports 100% and produces nothing. */
  lemma TextTargetProducesNothing(s: ConverterState, env: ConverterEnv)
    requires s.file.Some? && IsValidFileType(s.file.value.name)
    requires s.targetFormat == "txt"
    ensures ConvertFile(s, env) == s.(isConverting := false, progress := 100)
  {
  }
}

=== FILE: file_utils.dfy ===
/** File-type classification by file name (utils/file-utils.ts). */
module FileUtils {
  import opened Wrappers
  import opened Text

  /** The four supported file types. */
  datatype FileType = Jpg | Jpeg | Png | Pdf

  /** The extension text naming each type. */
  function Name(t: FileType): string {
    match t
    case Jpg => "jpg"
    case Jpeg => "jpeg"
    case Png => "png"
    case Pdf => "pdf"
  }

  /** `SUPPORTED_EXTENSIONS`, in the source's order. */
  const SupportedExtensions: seq<string> := ["jpg", "jpeg", "png", "pdf"]

  /** The type an extension text names, if any.  This is the `as
      SupportedFileType` reading of a string that the source performs
      after a membership test. */
  function ParseFileType(s: string): (r: Option<FileType>)
    ensures r.Some? ==> Name(r.value) == s
    ensures r.None? ==> forall t: FileType :: Name(t) != s
  {
    if s == "jpg" then Some(Jpg)
    else if s == "jpeg" then Some(Jpeg)
    else if s == "png" then Some(Png)
    else if s == "pdf" then Some(Pdf)
    else None
  }

  lemma ParseFileTypeRoundTrip(t: FileType)
    ensures ParseFileType(Name(t)) == Some(t)
  {
  }

  /** The extension list and the type names are the same four texts. */
  lemma SupportedExtensionsAreTypeNames(s: string)
    ensures s in SupportedExtensions <==> ParseFileType(s).Some?
  {
  }

  /** `getFileType`: no extension when the name has no `.`; otherwise the
      lower-cased text after the last `.`, where an empty text counts as
      no extension.  The contract states the result without reference to
      `LastSegment`: absent exactly when there is no dot or the name ends
      in one, and otherwise a non-empty, dot-free, lower-case text that is
      the lower-cased tail of the name following a dot. */
  function GetFileType(fileName: string): (r: Option<string>)
    ensures r.None? <==> '.' !in fileName || fileName[|fileName| - 1] == '.'
    ensures r.Some? ==>
              && |r.value| > 0 && '.' !in r.value
              && |r.value| < |fileName|
              && fileName[|fileName| - |r.value| - 1] == '.'
              && AsciiLower(fileName[|fileName| - |r.value|..]) == r.value
  {
    if '.' !in fileName then None
    else
      var segment := LastSegment(fileName, '.');
      AsciiLowerKeepsChar(segment, '.');
      var ext := AsciiLower(segment);
      if ext == [] then None else Some(ext)
  }

  /** `isValidFileType`: the name has an extension and it is one of the
      supported ones. */
  predicate IsValidFileType(fileName: string) {
    GetFileType(fileName).Some? && GetFileType(fileName).value in SupportedExtensions
  }

  /** The supported type of a file name, when it has one. */
  function ClassifyFile(fileName: string): (r: Option<FileType>)
    ensures r.Some? <==> IsValidFileType(fileName)
    ensures r.Some? ==> GetFileType(fileName) == Some(Name(r.value))
  {
    match GetFileType(fileName)
    case None => None
    case Some(ext) => ParseFileType(ext)
  }

  /** Conversely to the contract of `GetFileType`: a name built as any
      prefix, a dot and a non-empty dot-free extension classifies as that
      extension lower-cased, whatever dots the prefix holds. */
  lemma GetFileTypeOfSplit(prefix: string, ext: string)
    requires '.' !in ext && ext != []
    ensures GetFileType(prefix + "." + ext) == Some(AsciiLower(ext))
  {
    LastSegmentAfter(prefix, '.', ext);
    assert (prefix + "." + ext)[|prefix|] == '.';
  }

  lemma GetFileTypeTrailingDot(prefix: string)
    ensures GetFileType(prefix + ".") == None
  {
  }

  lemma GetFileTypeLeadingDot()
    ensures GetFileType(".png") == Some("png")
  {
    assert ".png" == "" + "." + "png";
    GetFileTypeOfSplit("", "png");
    AsciiLowerOfLower("png");
  }

  lemma GetFileTypeNoDot()
    ensures GetFileType("README") == None
  {
    assert '.' !in "README";
  }

  /** Classification ignores letter case: lower-casing the name first
      changes nothing. */
  lemma GetFileTypeCaseInsensitive(fileName: string)
    ensures GetFileType(AsciiLower(fileName)) == GetFileType(fileName)
  {
    AsciiLowerKeepsChar(fileName, '.');
    if '.' in fileName {
      var ext := LastSegment(fileName, '.');
      var prefix := fileName[..|fileName| - |ext| - 1];
      assert fileName == prefix + "." + ext;
      AsciiLowerAppend(prefix + ".", ext);
      AsciiLowerAppend(prefix, ".");
      assert AsciiLower(fileName) == AsciiLower(prefix) + "." + AsciiLower(ext);
      AsciiLowerKeepsChar(ext, '.');
      if ext == [] {
        LastSegmentAfter(AsciiLower(prefix), '.', []);
        assert AsciiLower(fileName) == AsciiLower(prefix) + "." + [];
      } else {
        GetFileTypeOfSplit(prefix, ext);
        GetFileTypeOfSplit(AsciiLower(prefix), AsciiLower(ext));
        AsciiLowerIdempotent(ext);
      }
    }
  }

  lemma GetFileTypeUpperExample()
    ensures GetFileType("A.PNG") == Some("png")
  {
    assert "A.PNG" == "A" + "." + "PNG";
    GetFileTypeOfSplit("A", "PNG");
    var lowered := AsciiLower("PNG");
    assert lowered[0] == LowerChar('P') == 'p';
    assert lowered[1] == LowerChar('N') == 'n';
    assert lowered[2] == LowerChar('G') == 'g';
    assert lowered == "png";
  }

  lemma ClassifyFileCaseExample()
    ensures ClassifyFile("A.PNG") == ClassifyFile("a.png") == Some(Png)
  {
    GetFileTypeUpperExample();
    assert "a.png" == "a" + "." + "png";
    GetFileTypeOfSplit("a", "png");
    AsciiLowerOfLower("png");
  }

  /** `isValidFileType` holds exactly when the extension is jpg, jpeg, png
      or pdf. */
  lemma IsValidFileTypeExactly(fileName: string)
    ensures IsValidFileType(fileName) <==>
              GetFileType(fileName) in {Some("jpg"), Some("jpeg"), Some("png"), Some("pdf")}
  {
  }
}

=== FILE: ocr.dfy ===
/** The OCR worker lifecycle (utils/ocr-utils.ts).  Two module-level
    variables, the recognition worker and the lazily imported library, form
    a small state machine driven by `initializeOCR`, `performOCR` and
    `terminateOCR`.  Every call into the OCR library or the file reader is
    replaced by its outcome, taken from an environment record. */
module Ocr {
  import opened Wrappers
  import opened Text

  /** The languages the worker is created with; the first is the default. */
  const SupportedLanguages: seq<string> := ["eng", "ron"]
  const DefaultLanguage: string := SupportedLanguages[0]

  const BrowserOnlyMessage: string := "OCR can only be performed in browser environment"
  const InvalidFileMessage: string := "Invalid file type. Please provide an image file."
  const InitFailedMessage: string := "OCR initialization failed"
  const ExtractFailedMessage: string := "Failed to extract text from image"

  /** A recognition worker.  `language` is the last value passed to
      `setParameters`, `None` while it has never been called. */
  datatype Worker = Worker(id: nat, language: Option<string>)

  /** The two module-level variables: the worker and whether the library
      has been imported. */
  datatype OcrState = OcrState(worker: Option<Worker>, moduleLoaded: bool)

  const InitialState: OcrState := OcrState(None, false)

  /** What the environment does when asked: whether a browser window
      exists, whether the dynamic import, `createWorker`, reading the image,
      `setParameters` and `terminate` succeed, the id a new worker gets,
      and the text `recognize` returns (`None` when it throws). */
  datatype OcrEnv = OcrEnv(
    inBrowser: bool,
    importSucceeds: bool,
    createSucceeds: bool,
    newWorkerId: nat,
    readSucceeds: bool,
    setParametersSucceeds: bool,
    terminateThrows: bool,
    recognized: Option<string>)

  /** The state after a call and what the call returned or threw. */
  datatype Step<T> = Step(state: OcrState, result: Result<T>)

  /** A worker only ever exists together with the imported library. */
  predicate Consistent(s: OcrState) {
    s.worker.Some? ==> s.moduleLoaded
  }

  /** `terminateOCR`: with a worker, both variables are cleared whether or
      not `terminate` throws; without one nothing happens. */
  function TerminateOCR(s: OcrState, terminateThrows: bool): (r: OcrState)
    ensures s.worker.None? ==> r == s
    ensures s.worker.Some? ==> r == InitialState
    ensures Consistent(s) ==> Consistent(r)
  {
    if s.worker.Some? then OcrState(None, false) else s
  }

  /** `initializeOCR`.  Outside a browser it returns null and touches
      nothing.  Otherwise it imports the library if needed, creates the
      worker if needed and returns it; a failure in either step tears down
      with `terminateOCR` and throws. */
  function InitializeOCR(s: OcrState, env: OcrEnv): (r: Step<Option<Worker>>)
    ensures !env.inBrowser ==> r == Step(s, Ok(None))
    ensures env.inBrowser ==> r.result != Ok(None)
    ensures env.inBrowser && s.moduleLoaded && s.worker.Some? ==> r == Step(s, Ok(s.worker))
    ensures r.result.Ok? && r.result.value.Some? ==>
              && r.state.worker == r.result.value
              && r.state.moduleLoaded
              && (s.worker.Some? ==> r.state.worker == s.worker)
              && (s.worker.None? ==> r.state.worker == Some(Worker(env.newWorkerId, None)))
    ensures r.result.Err? <==>
              && env.inBrowser
              && ((!s.moduleLoaded && !env.importSucceeds) || (s.worker.None? && !env.createSucceeds))
    ensures r.result.Err? ==> r.result.message == InitFailedMessage && r.state.worker.None?
    ensures r.result.Err? && s.worker.None? && (s.moduleLoaded || env.importSucceeds) ==>
              r.state.moduleLoaded
    ensures Consistent(s) ==> Consistent(r.state)
  {
    if !env.inBrowser then Step(s, Ok(None))
    else if !s.moduleLoaded && !env.importSucceeds then
      Step(TerminateOCR(s, env.terminateThrows), Err(InitFailedMessage))
    else
      var loaded := s.(moduleLoaded := true);
      if loaded.worker.Some? then Step(loaded, Ok(loaded.worker))
      else if !env.createSucceeds then
        Step(TerminateOCR(loaded, env.terminateThrows), Err(InitFailedMessage))
      else
        var created := loaded.(worker := Some(Worker(env.newWorkerId, None)));
        Step(created, Ok(created.worker))
  }

  /** The worker's language after `performOCR` asked for `language`:
      `setParameters` runs exactly when it differs from the default, and it
      is not compared with what the worker already has. */
  function AfterLanguage(w: Worker, language: string): (r: Worker)
    ensures r.id == w.id
    ensures language != DefaultLanguage ==> r.language == Some(language)
    ensures language == DefaultLanguage ==> r == w
  {
    if language != SupportedLanguages[0] then w.(language := Some(language)) else w
  }

  /** `performOCR`: gate on the browser and on an `image/` MIME type before
      touching any state, then initialise, read the image, set the language
      if it is not the default, recognise and trim.  Every failure after
      the gates is reported with one message. */
  function PerformOCR(s: OcrState, env: OcrEnv, mimeType: string, language: string): (r: Step<string>)
    ensures !env.inBrowser ==> r == Step(s, Err(BrowserOnlyMessage))
    ensures env.inBrowser && !StartsWith(mimeType, "image/") ==> r == Step(s, Err(InvalidFileMessage))
    ensures env.inBrowser && StartsWith(mimeType, "image/") && r.result.Err? ==>
              r.result.message == ExtractFailedMessage
    ensures r.result.Ok? ==>
              && env.inBrowser && StartsWith(mimeType, "image/") && env.readSucceeds
              && env.recognized.Some?
              && r.result.value == Trim(env.recognized.value)
              && (language != DefaultLanguage ==> env.setParametersSucceeds)
    ensures r.result.Ok? ==>
              && r.state.moduleLoaded && r.state.worker.Some?
              && (language != DefaultLanguage ==> r.state.worker.value.language == Some(language))
    ensures env.inBrowser && StartsWith(mimeType, "image/")
            && (s.moduleLoaded || env.importSucceeds) && (s.worker.Some? || env.createSucceeds)
            && env.readSucceeds && (language != DefaultLanguage ==> env.setParametersSucceeds)
            && env.recognized.Some? ==>
              r.result == Ok(Trim(env.recognized.value))
    ensures env.inBrowser && StartsWith(mimeType, "image/") && InitializeOCR(s, env).result.Err? ==>
              r.state == InitializeOCR(s, env).state && r.state.worker.None?
    ensures env.inBrowser && StartsWith(mimeType, "image/") && InitializeOCR(s, env).result.Ok? ==>
              && r.state.moduleLoaded && r.state.worker.Some?
              && r.state.worker.value.id == InitializeOCR(s, env).state.worker.value.id
    ensures r.result.Ok? ==>
              r.state.worker == Some(AfterLanguage(InitializeOCR(s, env).result.value.value, language))
    ensures language == DefaultLanguage && r.result.Ok? ==> r.state == InitializeOCR(s, env).state
    ensures Consistent(s) ==> Consistent(r.state)
  {
    if !env.inBrowser then Step(s, Err(BrowserOnlyMessage))
    else if !StartsWith(mimeType, "image/") then Step(s, Err(InvalidFileMessage))
    else
      var init := InitializeOCR(s, env);
      match init.result
      case Err(_) => Step(init.state, Err(ExtractFailedMessage))
      case Ok(None) => Step(init.state, Err(ExtractFailedMessage))
      case Ok(Some(w)) =>
        if !env.readSucceeds then Step(init.state, Err(ExtractFailedMessage))
        else if language != SupportedLanguages[0] && !env.setParametersSucceeds then
          Step(init.state, Err(ExtractFailedMessage))
        else
          var after := init.state.(worker := Some(AfterLanguage(w, language)));
          match env.recognized
          case None => Step(after, Err(ExtractFailedMessage))
          case Some(text) => Step(after, Ok(Trim(text)))
  }

  /** Terminating twice is the same as terminating once. */
  lemma TerminateIdempotent(s: OcrState, first: bool, second: bool)
    ensures TerminateOCR(TerminateOCR(s, first), second) == TerminateOCR(s, first)
    ensures TerminateOCR(s, first) == TerminateOCR(s, second)
  {
  }

  /** A failed initialisation from the initial state leaves the state
      initial again if the import failed, and keeps only the imported
      library if `createWorker` failed. */
  lemma InitFailureFromScratch(env: OcrEnv)
    requires env.inBrowser && !(env.importSucceeds && env.createSucceeds)
    ensures var r := InitializeOCR(InitialState, env);
            && r.result == Err(InitFailedMessage)
            && r.state == (if env.importSucceeds then OcrState(None, true) else InitialState)
  {
  }

  /** Once a worker exists, a second initialisation neither creates another
      nor consults the library. */
  lemma InitializeReusesWorker(s: OcrState, env: OcrEnv, other: OcrEnv)
    requires Consistent(s) && s.worker.Some? && env.inBrowser && other.inBrowser
    ensures InitializeOCR(s, env) == InitializeOCR(s, other) == Step(s, Ok(s.worker))
  {
  }

  /** A rejected MIME type is reported before the worker is created. */
  lemma NonImageLeavesStateAlone(s: OcrState, env: OcrEnv, language: string)
    requires env.inBrowser
    ensures PerformOCR(s, env, "application/pdf", language) == Step(s, Err(InvalidFileMessage))
  {
    assert "application/pdf"[..6] != "image/" by {
      assert "application/pdf"[0] == 'a';
    }
  }

  /** A read failure after the worker was created is reported, but the
      worker is kept: the error path does not tear it down. */
  lemma FailureKeepsWorker(env: OcrEnv, mimeType: string, language: string)
    requires StartsWith(mimeType, "image/")
    requires env.inBrowser && env.importSucceeds && env.createSucceeds && !env.readSucceeds
    ensures PerformOCR(InitialState, env, mimeType, language)
            == Step(OcrState(Some(Worker(env.newWorkerId, None)), true), Err(ExtractFailedMessage))
  {
  }

  /** A successful run in Romanian followed by one in the default language
      leaves the worker set to Romanian: the default is never set back. */
  lemma LanguageIsNotReset(s: OcrState, env: OcrEnv, mimeType: string)
    requires StartsWith(mimeType, "image/")
    requires env.inBrowser && (s.moduleLoaded || env.importSucceeds)
    requires (s.worker.Some? || env.createSucceeds) && env.readSucceeds
    requires env.setParametersSucceeds && env.recognized.Some?
    ensures var first := PerformOCR(s, env, mimeType, "ron");
            var second := PerformOCR(first.state, env, mimeType, "eng");
            && first.result.Ok? && second.result.Ok?
            && second.state.worker.Some?
            && second.state.worker.value.language == Some("ron")
  {
    var first := PerformOCR(s, env, mimeType, "ron");
    assert "ron" != DefaultLanguage;
    assert first.state.worker.value.language == Some("ron");
  }
}

=== FILE: page_preview.dfy ===
/** The drag-to-reorder glue of the page preview
    (components/pdf-page-preview.tsx).  Each page is identified to the
    drag-and-drop library by a key built from its two indices; a finished
    drag names the dragged key and the key it was dropped over, and the
    preview turns those back into list positions for `reorderPages`. */
module PagePreview {
  import opened Wrappers
  import opened Text
  import opened PdfMerger

  lemma DigitsHaveNoDash(s: string)
    requires forall i :: 0 <= i < |s| ==> IsDigit(s[i])
    ensures '-' !in s
  {
    forall i | 0 <= i < |s| ensures s[i] != '-' {
      assert IsDigit(s[i]);
    }
  }

  /** The sortable id of a page: its file index and page index in decimal,
      joined by a dash.  Both numbers can be read back from the key. */
  function PageKey(p: PdfPage): (r: string)
    ensures FirstSegment(r, '-') == NatToString(p.pdfIndex)
    ensures LastSegment(r, '-') == NatToString(p.pageIndex)
    ensures r == NatToString(p.pdfIndex) + "-" + NatToString(p.pageIndex)
  {
    var a := NatToString(p.pdfIndex);
    var b := NatToString(p.pageIndex);
    DigitsHaveNoDash(a);
    DigitsHaveNoDash(b);
    FirstSegmentBefore(a, '-', b);
    LastSegmentAfter(a, '-', b);
    a + "-" + b
  }

  /** Reading the numbers back out of a key gives the page's indices. */
  lemma PageKeyRoundTrip(p: PdfPage)
    ensures DigitsValue(FirstSegment(PageKey(p), '-')) == p.pdfIndex
    ensures DigitsValue(LastSegment(PageKey(p), '-')) == p.pageIndex
  {
    NatToStringRoundTrip(p.pdfIndex);
    NatToStringRoundTrip(p.pageIndex);
  }

  /** Different pages never share a key. */
  lemma PageKeyInjective(p: PdfPage, q: PdfPage)
    requires PageKey(p) == PageKey(q)
    ensures p == q
  {
    NatToStringInjective(p.pdfIndex, q.pdfIndex);
    NatToStringInjective(p.pageIndex, q.pageIndex);
  }

  /** The item ids handed to the sortable list, one per page in order. */
  function Items(pages: seq<PdfPage>): (r: seq<string>)
    ensures |r| == |pages|
    ensures forall i :: 0 <= i < |pages| ==> r[i] == PageKey(pages[i])
  {
    seq(|pages|, i requires 0 <= i < |pages| => PageKey(pages[i]))
  }

  /** A page list without repeated pages gives the sortable list distinct
      ids, as the drag-and-drop library needs. */
  lemma ItemsDistinct(pages: seq<PdfPage>)
    requires DistinctPages(pages)
    ensures forall a, b :: 0 <= a < b < |pages| ==> Items(pages)[a] != Items(pages)[b]
  {
    forall a, b | 0 <= a < b < |pages| ensures Items(pages)[a] != Items(pages)[b] {
      if Items(pages)[a] == Items(pages)[b] {
        PageKeyInjective(pages[a], pages[b]);
      }
    }
  }

  /** The first position holding `key`, or `None` (the -1 of a failed
      `findIndex`). */
  function IndexOf(keys: seq<string>, key: string): (r: Option<nat>)
    ensures r.None? <==> key !in keys
    ensures r.Some? ==> r.value < |keys| && keys[r.value] == key
    ensures r.Some? ==> forall i :: 0 <= i < r.value ==> keys[i] != key
    decreases |keys|
  {
    if |keys| == 0 then None
    else if keys[0] == key then Some(0)
    else
      var rest := keys[1..];
      assert forall i :: 0 <= i < |rest| ==> rest[i] == keys[i + 1];
      match IndexOf(rest, key)
      case None => None
      case Some(k) => Some(k + 1)
  }

  /** `findIndex` on the page list comparing each page's key. */
  function FindKey(pages: seq<PdfPage>, key: string): (r: Option<nat>)
    ensures r.None? <==> forall i :: 0 <= i < |pages| ==> PageKey(pages[i]) != key
    ensures r.Some? ==>
              && r.value < |pages|
              && PageKey(pages[r.value]) == key
              && forall i :: 0 <= i < r.value ==> PageKey(pages[i]) != key
  {
    IndexOf(Items(pages), key)
  }

  lemma DistinctKeys(pages: seq<PdfPage>, a: nat, b: nat)
    requires DistinctPages(pages) && a < |pages| && b < |pages| && a != b
    ensures PageKey(pages[a]) != PageKey(pages[b])
  {
    if PageKey(pages[a]) == PageKey(pages[b]) {
      PageKeyInjective(pages[a], pages[b]);
    }
  }

  /** Among distinct pages, a found key is held by exactly one position. */
  lemma FindKeyUnique(pages: seq<PdfPage>, key: string, j: nat)
    requires DistinctPages(pages) && j < |pages| && PageKey(pages[j]) == key
    ensures FindKey(pages, key) == Some(j)
  {
    var k := FindKey(pages, key).value;
    if k != j {
      PageKeyInjective(pages[k], pages[j]);
    }
  }

  /** `handleDragEnd`: the (source, destination) pair passed to `onReorder`,
      or `None` when it is not called.  It is called only when the item was
      dropped over another item and both keys are found in the list. */
  function HandleDragEnd(pages: seq<PdfPage>, active: string, over: Option<string>): (r: Option<(nat, nat)>)
    ensures r.Some? <==>
              && over.Some? && over.value != active
              && (exists i :: 0 <= i < |pages| && PageKey(pages[i]) == active)
              && (exists j :: 0 <= j < |pages| && PageKey(pages[j]) == over.value)
    ensures r.Some? ==>
              && r.value.0 < |pages| && PageKey(pages[r.value.0]) == active
              && r.value.1 < |pages| && PageKey(pages[r.value.1]) == over.value
              && r.value.0 != r.value.1
  {
    if over.Some? && active != over.value then
      var activeIndex := FindKey(pages, active);
      var overIndex := FindKey(pages, over.value);
      if activeIndex.Some? && overIndex.Some? then Some((activeIndex.value, overIndex.value))
      else None
    else None
  }

  /** The merger state after a drag ends: `reorderPages` applied to the
      positions found, or no change. */
  function DragEnd(s: MergerState, active: string, over: Option<string>): (r: MergerState)
    ensures r.pdfFiles == s.pdfFiles && r.isLoading == s.isLoading
    ensures r.mergedPdf == s.mergedPdf && r.progress == s.progress
    ensures |r.pages| == |s.pages| && multiset(r.pages) == multiset(s.pages)
    ensures over == Some(active) ==> r == s
    ensures over.None? ==> r == s
    ensures (forall i :: 0 <= i < |s.pages| ==> PageKey(s.pages[i]) != active) ==> r == s
  {
    match HandleDragEnd(s.pages, active, over)
    case None => s
    case Some((source, destination)) => s.(pages := ReorderPages(s.pages, source, destination))
  }

  /** A drag between two pages of a list without repeats moves the dragged
      page to exactly the position the target page held. */
  lemma DragMovesPageOntoTarget(s: MergerState, source: nat, destination: nat)
    requires DistinctPages(s.pages) && source < |s.pages| && destination < |s.pages| && source != destination
    ensures var r := DragEnd(s, PageKey(s.pages[source]), Some(PageKey(s.pages[destination])));
            && r.pages == ReorderPages(s.pages, source, destination)
            && r.pages[destination] == s.pages[source]
            && DistinctPages(r.pages)
  {
    var active := PageKey(s.pages[source]);
    var over := PageKey(s.pages[destination]);
    DistinctKeys(s.pages, source, destination);
    FindKeyUnique(s.pages, active, source);
    FindKeyUnique(s.pages, over, destination);
    assert HandleDragEnd(s.pages, active, Some(over)) == Some((source, destination));
    ReorderKeepsDistinct(s.pages, source, destination);
  }

  /** The remove button of the item at list position `position` removes
      that position, whatever the page's own `pageIndex` is. */
  function RemoveButton(s: MergerState, position: nat): (r: MergerState)
    requires position < |s.pages|
    ensures |r.pages| == |s.pages| - 1
    ensures multiset(r.pages) + multiset{s.pages[position]} == multiset(s.pages)
    ensures r.pages == s.pages[..position] + s.pages[position + 1..]
    ensures r.pdfFiles == s.pdfFiles && r.mergedPdf == s.mergedPdf && r.progress == s.progress
  {
    var r := RemovePage(s, position);
    assert s.pages == s.pages[..position] + [s.pages[position]] + s.pages[position + 1..];
    assert r.pages == s.pages[..position] + s.pages[position + 1..];
    r
  }

  /** After the two pages of one file were swapped, the first item shows
      page index 1; its button removes that item, whereas passing its
      `pageIndex` would have removed the other page. */
  lemma RemoveButtonUsesPosition()
    ensures var s := MergerState([], [PdfPage(0, 1), PdfPage(0, 0)], false, None, 0);
            && RemoveButton(s, 0).pages == [PdfPage(0, 0)]
            && RemovePage(s, s.pages[0].pageIndex).pages == [PdfPage(0, 1)]
  {
    var s := MergerState([], [PdfPage(0, 1), PdfPage(0, 0)], false, None, 0);
    assert s.pages[1..] == [PdfPage(0, 0)];
    assert DropIndex(s.pages, 1) == [PdfPage(0, 1)];
  }
}

=== FILE: pdf_merger.dfy ===
/** The PDF merge queue (hooks/usePdfMerger.tsx).  Loading builds the list
    of page references; reorder and the two removals edit it; merging
    copies the referenced pages in order.  The PDF parser, renderer and
    writer are replaced by the outcomes they produce. */
module PdfMerger {
  import opened Wrappers
  import opened Text
  import FileUtils

  const PdfMime: string := "application/pdf"

  /** A dropped file: its name, its MIME type, and how many pages the PDF
      parser finds in its bytes.  `None` stands for any failure of the
      steps outside the per-page loop: reading the bytes, parsing them, or
      opening the document for the preview renderer; each of these aborts
      the whole load. */
  datatype InputFile = InputFile(name: string, mimeType: string, parsedPages: Option<nat>)

  /** An entry of `pdfFiles`. */
  datatype PdfFile = PdfFile(file: InputFile, name: string, pageCount: nat)

  /** An entry of `pages`: which loaded file and which page of it.  The
      preview image is not modelled. */
  datatype PdfPage = PdfPage(pdfIndex: nat, pageIndex: nat)

  /** A page copied into the merged document, named by its source file. */
  datatype CopiedPage = CopiedPage(source: InputFile, pageIndex: nat)

  datatype MergedPdf = MergedPdf(name: string, pages: seq<CopiedPage>)

  /** The hook's state. */
  datatype MergerState = MergerState(
    pdfFiles: seq<PdfFile>,
    pages: seq<PdfPage>,
    isLoading: bool,
    mergedPdf: Option<MergedPdf>,
    progress: int)

  const InitialState: MergerState := MergerState([], [], false, None, 0)

  // ---------------------------------------------------------------------
  // Progress clamps

  /** `Math.min(prev + step, 90)`: a timer tick, 1 while loading and 10
      while merging. */
  function ClampedTick(prev: int, step: nat): (r: int)
    ensures r <= 90
    ensures prev <= 90 ==> prev <= r
    ensures r == 90 || r == prev + step
    ensures r <= prev + step
  {
    if prev + step < 90 then prev + step else 90
  }

  /** The progress after `ticks` timer firings from 0. */
  function ClampedAfter(step: nat, ticks: nat): (r: int)
    ensures 0 <= r <= 90
    decreases ticks
  {
    if ticks == 0 then 0 else ClampedTick(ClampedAfter(step, ticks - 1), step)
  }

  lemma {:induction false} ClampedAfterMonotone(step: nat, a: nat, b: nat)
    requires a <= b
    ensures ClampedAfter(step, a) <= ClampedAfter(step, b)
    decreases b - a
  {
    if a < b {
      ClampedAfterMonotone(step, a, b - 1);
    }
  }

  /** `Math.min(90 * (done / total), 90)`: the per-page estimate while
      loading. */
  function PageProgress(done: nat, total: nat): (r: real)
    requires total > 0
    ensures 0.0 <= r <= 90.0
    ensures done >= total ==> r == 90.0
  {
    var estimate := 90.0 * (done as real / total as real);
    if estimate < 90.0 then estimate else 90.0
  }

  // ---------------------------------------------------------------------
  // Loading

  predicate IsPdf(f: InputFile) {
    f.mimeType == PdfMime
  }

  /** Every file claiming to be a PDF parses. */
  predicate AllPdfsParse(files: seq<InputFile>) {
    forall i :: 0 <= i < |files| && IsPdf(files[i]) ==> files[i].parsedPages.Some?
  }

  /** Positions, in the input list, of the files whose type is PDF. */
  function PdfPositions(files: seq<InputFile>): (r: seq<nat>)
    ensures forall j :: 0 <= j < |r| ==> r[j] < |files| && IsPdf(files[r[j]])
    ensures forall i :: 0 <= i < |files| && IsPdf(files[i]) ==> i in r
    ensures forall a, b :: 0 <= a < b < |r| ==> r[a] < r[b]
    decreases |files|
  {
    if |files| == 0 then []
    else
      var prev := PdfPositions(files[..|files| - 1]);
      if IsPdf(files[|files| - 1]) then prev + [|files| - 1] else prev
  }

  /** The `pdfFiles` entry for a parsed file. */
  function Entry(f: InputFile): PdfFile
    requires f.parsedPages.Some?
  {
    PdfFile(f, f.name, f.parsedPages.value)
  }

  /** Pages 0 .. count-1 of one file, in order. */
  function PagesOf(pdfIndex: nat, count: nat): (r: seq<PdfPage>)
    ensures |r| == count
    ensures forall k :: 0 <= k < count ==> r[k] == PdfPage(pdfIndex, k)
  {
    seq(count, k requires 0 <= k < count => PdfPage(pdfIndex, k))
  }

  /** Strict (pdfIndex, pageIndex) order. */
  predicate PageBefore(p: PdfPage, q: PdfPage) {
    p.pdfIndex < q.pdfIndex || (p.pdfIndex == q.pdfIndex && p.pageIndex < q.pageIndex)
  }

  /** `pages` lists every page of every PDF input exactly once, tagged with
      the file's position in the input list, in ascending order. */
  predicate PagesListed(files: seq<InputFile>, pages: seq<PdfPage>) {
    && (forall a :: 0 <= a < |pages| ==>
          && pages[a].pdfIndex < |files|
          && IsPdf(files[pages[a].pdfIndex])
          && files[pages[a].pdfIndex].parsedPages.Some?
          && pages[a].pageIndex < files[pages[a].pdfIndex].parsedPages.value)
    && (forall i, k ::
          0 <= i < |files| && IsPdf(files[i]) && files[i].parsedPages.Some? && 0 <= k < files[i].parsedPages.value
          ==> PdfPage(i, k) in pages)
    && (forall a, b :: 0 <= a < b < |pages| ==> PageBefore(pages[a], pages[b]))
  }

  /** `pdfFiles` holds one entry per PDF input, in input order. */
  predicate FilesListed(files: seq<InputFile>, entries: seq<PdfFile>) {
    var positions := PdfPositions(files);
    && |entries| == |positions|
    && forall j :: 0 <= j < |entries| ==>
         files[positions[j]].parsedPages.Some? && entries[j] == Entry(files[positions[j]])
  }

  datatype Loaded = Loaded(files: seq<PdfFile>, pages: seq<PdfPage>)

  /** The loop of `loadPdfFiles`: skip non-PDF files, record each PDF and
      its pages.  A parse failure throws out of the loop, so the whole
      load yields nothing.  What it records is stated by `LoadAllListed`. */
  function LoadAll(files: seq<InputFile>): (r: Option<Loaded>)
    ensures r.Some? <==> AllPdfsParse(files)
    decreases |files|
  {
    if |files| == 0 then Some(Loaded([], []))
    else
      var i := |files| - 1;
      var last := files[i];
      AllPdfsParseStep(files);
      match LoadAll(files[..i])
      case None => None
      case Some(acc) =>
        if !IsPdf(last) then Some(acc)
        else
          match last.parsedPages
          case None => None
          case Some(n) => Some(Loaded(acc.files + [Entry(last)], acc.pages + PagesOf(i, n)))
  }

  /** A successful load records one entry per PDF input in input order,
      and lists every page of every PDF input once, tagged with the file's
      position in the input list, in ascending (file, page) order. */
  lemma {:induction false} LoadAllListed(files: seq<InputFile>)
    requires AllPdfsParse(files)
    ensures FilesListed(files, LoadAll(files).value.files)
    ensures PagesListed(files, LoadAll(files).value.pages)
    decreases |files|
  {
    if |files| > 0 {
      var i := |files| - 1;
      AllPdfsParseStep(files);
      LoadAllListed(files[..i]);
      var acc := LoadAll(files[..i]).value;
      if !IsPdf(files[i]) {
        FilesListedSkip(files, acc.files);
        PagesListedSkip(files, acc.pages);
      } else {
        FilesListedExtend(files, acc.files);
        PagesListedExtend(files, acc.pages, files[i].parsedPages.value);
      }
    }
  }

  lemma AllPdfsParseStep(files: seq<InputFile>)
    requires |files| > 0
    ensures var i := |files| - 1;
            AllPdfsParse(files) <==>
              AllPdfsParse(files[..i]) && (IsPdf(files[i]) ==> files[i].parsedPages.Some?)
  {
    var i := |files| - 1;
    assert forall k :: 0 <= k < i ==> files[..i][k] == files[k];
  }

  lemma FilesListedSkip(files: seq<InputFile>, entries: seq<PdfFile>)
    requires |files| > 0 && !IsPdf(files[|files| - 1])
    requires FilesListed(files[..|files| - 1], entries)
    ensures FilesListed(files, entries)
  {
    var i := |files| - 1;
    assert forall k :: 0 <= k < i ==> files[..i][k] == files[k];
  }

  lemma FilesListedExtend(files: seq<InputFile>, entries: seq<PdfFile>)
    requires |files| > 0 && IsPdf(files[|files| - 1]) && files[|files| - 1].parsedPages.Some?
    requires FilesListed(files[..|files| - 1], entries)
    ensures FilesListed(files, entries + [Entry(files[|files| - 1])])
  {
    var i := |files| - 1;
    assert forall k :: 0 <= k < i ==> files[..i][k] == files[k];
    var positions := PdfPositions(files);
    assert positions == PdfPositions(files[..i]) + [i];
  }

  lemma PagesListedSkip(files: seq<InputFile>, pages: seq<PdfPage>)
    requires |files| > 0 && !IsPdf(files[|files| - 1])
    requires PagesListed(files[..|files| - 1], pages)
    ensures PagesListed(files, pages)
  {
    var i := |files| - 1;
    assert forall k :: 0 <= k < i ==> files[..i][k] == files[k];
    forall j, k | 0 <= j < |files| && IsPdf(files[j]) && files[j].parsedPages.Some?
                  && 0 <= k < files[j].parsedPages.value
      ensures PdfPage(j, k) in pages
    {
      assert files[..i][j] == files[j];
    }
  }

  lemma PagesListedExtend(files: seq<InputFile>, prev: seq<PdfPage>, n: nat)
    requires |files| > 0
    requires IsPdf(files[|files| - 1]) && files[|files| - 1].parsedPages == Some(n)
    requires PagesListed(files[..|files| - 1], prev)
    ensures PagesListed(files, prev + PagesOf(|files| - 1, n))
  {
    var i := |files| - 1;
    var pages := prev + PagesOf(i, n);
    assert forall k :: 0 <= k < i ==> files[..i][k] == files[k];
    forall a | 0 <= a < |pages|
      ensures pages[a].pdfIndex < |files| && IsPdf(files[pages[a].pdfIndex])
      ensures files[pages[a].pdfIndex].parsedPages.Some?
      ensures pages[a].pageIndex < files[pages[a].pdfIndex].parsedPages.value
    {
      if a < |prev| {
        assert pages[a] == prev[a];
      } else {
        assert pages[a] == PdfPage(i, a - |prev|);
      }
    }
    forall j, k | 0 <= j < |files| && IsPdf(files[j]) && files[j].parsedPages.Some?
                  && 0 <= k < files[j].parsedPages.value
      ensures PdfPage(j, k) in pages
    {
      if j < i {
        assert files[..i][j] == files[j];
        assert PdfPage(j, k) in prev;
      } else {
        assert pages[|prev| + k] == PdfPage(i, k);
      }
    }
    forall a, b | 0 <= a < b < |pages| ensures PageBefore(pages[a], pages[b]) {
      if b < |prev| {
        assert pages[a] == prev[a] && pages[b] == prev[b];
      } else if a < |prev| {
        assert pages[a] == prev[a];
        assert prev[a].pdfIndex < i;
      }
    }
  }

  /** `loadPdfFiles`.  An empty drop changes nothing.  Otherwise the
      loaded lists replace the old ones; a load that throws leaves them as
      they were.  Either way loading ends, and `mergedPdf` is untouched. */
  function LoadPdfFiles(s: MergerState, files: seq<InputFile>, ticks: nat): (r: MergerState)
    ensures |files| == 0 ==> r == s
    ensures |files| > 0 ==> !r.isLoading && r.mergedPdf == s.mergedPdf
    ensures |files| > 0 && AllPdfsParse(files) ==> r.progress == 100
    ensures |files| > 0 && !AllPdfsParse(files) ==>
              r.pdfFiles == s.pdfFiles && r.pages == s.pages && 0 <= r.progress <= 90
  {
    if |files| == 0 then s
    else
      match LoadAll(files)
      case None => s.(isLoading := false, progress := ClampedAfter(1, ticks))
      case Some(loaded) => s.(pdfFiles := loaded.files, pages := loaded.pages, isLoading := false, progress := 100)
  }

  /** After a successful load, `pdfFiles` holds the PDF inputs in order and
      `pages` lists all their pages grouped by ascending input position. */
  lemma LoadPdfFilesListsPages(s: MergerState, files: seq<InputFile>, ticks: nat)
    requires |files| > 0 && AllPdfsParse(files)
    ensures FilesListed(files, LoadPdfFiles(s, files, ticks).pdfFiles)
    ensures PagesListed(files, LoadPdfFiles(s, files, ticks).pages)
  {
    LoadAllListed(files);
  }

  /** A successful load does not depend on what was loaded before. */
  lemma LoadReplaces(s: MergerState, files: seq<InputFile>, ticks: nat)
    requires |files| > 0 && AllPdfsParse(files)
    ensures LoadPdfFiles(s, files, ticks).pdfFiles == LoadPdfFiles(InitialState, files, ticks).pdfFiles
    ensures LoadPdfFiles(s, files, ticks).pages == LoadPdfFiles(InitialState, files, ticks).pages
  {
  }

  // ---------------------------------------------------------------------
  // Editing the page list

  /** `xs.filter((_, index) => index !== k)`: only position `k` goes, and
      an out-of-range `k` changes nothing. */
  function DropIndex<T>(xs: seq<T>, k: nat): (r: seq<T>)
    ensures k < |xs| ==> |r| == |xs| - 1
    ensures k >= |xs| ==> r == xs
    ensures forall i :: 0 <= i < |r| ==> r[i] == (if i < k then xs[i] else xs[i + 1])
  {
    if k < |xs| then xs[..k] + xs[k + 1..] else xs
  }

  /** `splice(index, 0, x)`: an index past the end appends. */
  function InsertAt<T>(xs: seq<T>, index: nat, x: T): (r: seq<T>)
    ensures |r| == |xs| + 1
    ensures var at := if index < |xs| then index else |xs|;
            r[at] == x && DropIndex(r, at) == xs
  {
    var at := if index < |xs| then index else |xs|;
    xs[..at] + [x] + xs[at..]
  }

  lemma DropIndexMultiset<T>(xs: seq<T>, k: nat)
    requires k < |xs|
    ensures multiset(xs) == multiset(DropIndex(xs, k)) + multiset{xs[k]}
  {
    assert xs == xs[..k] + [xs[k]] + xs[k + 1..];
  }

  /** `reorderPages`: take the page at `source` out and put it back at
      `destination`.  The result is a permutation of the input with the
      moved page at the destination and every other page in its old
      relative order. */
  function ReorderPages(pages: seq<PdfPage>, source: nat, destination: nat): (r: seq<PdfPage>)
    requires source < |pages|
    ensures |r| == |pages|
    ensures multiset(r) == multiset(pages)
    ensures var at := if destination < |pages| then destination else |pages| - 1;
            r[at] == pages[source] && DropIndex(r, at) == DropIndex(pages, source)
  {
    var rest := DropIndex(pages, source);
    var r := InsertAt(rest, destination, pages[source]);
    var at := if destination < |rest| then destination else |rest|;
    DropIndexMultiset(pages, source);
    DropIndexMultiset(r, at);
    r
  }

  /** Moving a page onto its own position changes nothing. */
  lemma ReorderInPlace(pages: seq<PdfPage>, i: nat)
    requires i < |pages|
    ensures ReorderPages(pages, i, i) == pages
  {
    var r := ReorderPages(pages, i, i);
    assert r[i] == pages[i] && DropIndex(r, i) == DropIndex(pages, i);
    forall k | 0 <= k < |pages| ensures r[k] == pages[k] {
      if k < i {
        assert DropIndex(r, i)[k] == r[k];
      } else if k > i {
        assert DropIndex(r, i)[k - 1] == r[k];
      }
    }
  }

  /** `pages.filter(page => page.pdfIndex !== pdfIndex)`. */
  function PagesWithout(pages: seq<PdfPage>, pdfIndex: nat): (r: seq<PdfPage>)
    ensures forall p :: p in r <==> p in pages && p.pdfIndex != pdfIndex
    ensures |r| <= |pages|
    decreases |pages|
  {
    if |pages| == 0 then []
    else (if pages[0].pdfIndex == pdfIndex then [] else [pages[0]]) + PagesWithout(pages[1..], pdfIndex)
  }

  /** Filtering distributes over concatenation, so survivors keep their
      order. */
  lemma {:induction false} PagesWithoutAppend(a: seq<PdfPage>, b: seq<PdfPage>, pdfIndex: nat)
    ensures PagesWithout(a + b, pdfIndex) == PagesWithout(a, pdfIndex) + PagesWithout(b, pdfIndex)
    decreases |a|
  {
    if |a| > 0 {
      assert (a + b)[1..] == a[1..] + b;
      PagesWithoutAppend(a[1..], b, pdfIndex);
    } else {
      assert a + b == b;
    }
  }

  /** `removeFile`: drop entry `pdfIndex` of `pdfFiles` and every page
      tagged with that index; the remaining pages keep their tags. */
  function RemoveFile(s: MergerState, pdfIndex: nat): (r: MergerState)
    ensures r.pdfFiles == DropIndex(s.pdfFiles, pdfIndex)
    ensures forall p :: p in r.pages <==> p in s.pages && p.pdfIndex != pdfIndex
    ensures r.pages == PagesWithout(s.pages, pdfIndex)
    ensures r.isLoading == s.isLoading && r.mergedPdf == s.mergedPdf && r.progress == s.progress
  {
    s.(pdfFiles := DropIndex(s.pdfFiles, pdfIndex), pages := PagesWithout(s.pages, pdfIndex))
  }

  /** `removePage`: drop the page at list position `position`. */
  function RemovePage(s: MergerState, position: nat): (r: MergerState)
    ensures r.pages == DropIndex(s.pages, position)
    ensures r.pdfFiles == s.pdfFiles && r.isLoading == s.isLoading
    ensures r.mergedPdf == s.mergedPdf && r.progress == s.progress
  {
    s.(pages := DropIndex(s.pages, position))
  }

  /** `reset`: back to empty lists, no merged file, progress 0. */
  function Reset(s: MergerState): (r: MergerState)
    ensures r == InitialState.(isLoading := s.isLoading)
  {
    s.(pdfFiles := [], pages := [], mergedPdf := None, progress := 0)
  }

  // ---------------------------------------------------------------------
  // Merging

  /** The page `p` names exists: its file index is inside `pdfFiles` and
      its page index inside that file. */
  predicate Copyable(files: seq<PdfFile>, p: PdfPage) {
    p.pdfIndex < |files| && p.pageIndex < files[p.pdfIndex].pageCount
  }

  /** The indexing of the merge loop: look each page's file up by
      `pdfIndex` and name the page to copy.  A missing file entry or page
      throws, failing the whole loop.  Whether re-reading, re-parsing and
      copying the named pages succeed is a separate outcome, taken by
      `MergePdfs`. */
  function ResolvePages(files: seq<PdfFile>, pages: seq<PdfPage>): (r: Option<seq<CopiedPage>>)
    ensures r.Some? <==> forall i :: 0 <= i < |pages| ==> Copyable(files, pages[i])
    ensures r.Some? ==>
              && |r.value| == |pages|
              && forall i :: 0 <= i < |pages| ==>
                   r.value[i] == CopiedPage(files[pages[i].pdfIndex].file, pages[i].pageIndex)
    decreases |pages|
  {
    if |pages| == 0 then Some([])
    else
      var p := pages[|pages| - 1];
      var prefix := pages[..|pages| - 1];
      assert forall i :: 0 <= i < |prefix| ==> prefix[i] == pages[i];
      match ResolvePages(files, prefix)
      case None => None
      case Some(copied) =>
        if Copyable(files, p) then Some(copied + [CopiedPage(files[p.pdfIndex].file, p.pageIndex)])
        else None
  }

  /** `merged_` + the date + `.pdf`; the date is an input. */
  function MergedName(date: string): (r: string)
    ensures StartsWith(r, "merged_")
    ensures FileUtils.GetFileType(r) == Some("pdf")
    ensures |r| == |date| + 11 && r[7..|r| - 4] == date
  {
    var r := "merged_" + date + ".pdf";
    assert r == ("merged_" + date) + "." + "pdf";
    assert r[..7] == "merged_";
    FileUtils.GetFileTypeOfSplit("merged_" + date, "pdf");
    AsciiLowerOfLower("pdf");
    r
  }

  /** `mergePdfs`.  With no pages it reports an error and changes nothing.
      Otherwise it is all or nothing: on success the merged document holds
      the referenced pages in list order and progress is 100; on any
      failure `mergedPdf` stays as it was and progress is wherever the
      timer had got to.  Loading always ends.  `copySucceeds` says whether
      re-reading and re-parsing every referenced file and `copyPages` all
      succeed; `saveSucceeds` whether the writer serialised the result. */
  function MergePdfs(s: MergerState, date: string, copySucceeds: bool, saveSucceeds: bool, ticks: nat): (r: MergerState)
    ensures |s.pages| == 0 ==> r == s
    ensures |s.pages| > 0 ==>
              && !r.isLoading && r.pdfFiles == s.pdfFiles && r.pages == s.pages
              && (r.progress == 100 <==>
                    && copySucceeds && saveSucceeds
                    && forall i :: 0 <= i < |s.pages| ==> Copyable(s.pdfFiles, s.pages[i]))
              && (r.progress != 100 ==> 0 <= r.progress <= 90 && r.mergedPdf == s.mergedPdf)
              && (r.progress == 100 ==>
                    && r.mergedPdf.Some? && r.mergedPdf.value.name == MergedName(date)
                    && |r.mergedPdf.value.pages| == |s.pages|
                    && forall i :: 0 <= i < |s.pages| ==>
                         r.mergedPdf.value.pages[i] == CopiedPage(s.pdfFiles[s.pages[i].pdfIndex].file, s.pages[i].pageIndex))
  {
    if |s.pages| == 0 then s
    else
      match ResolvePages(s.pdfFiles, s.pages)
      case Some(copied) =>
        if copySucceeds && saveSucceeds then
          s.(isLoading := false, mergedPdf := Some(MergedPdf(MergedName(date), copied)), progress := 100)
        else s.(isLoading := false, progress := ClampedAfter(10, ticks))
      case None => s.(isLoading := false, progress := ClampedAfter(10, ticks))
  }

  // ---------------------------------------------------------------------
  // Distinct page references

  /** No page reference occurs twice in the list. */
  predicate DistinctPages(pages: seq<PdfPage>) {
    forall a, b :: 0 <= a < b < |pages| ==> pages[a] != pages[b]
  }

  lemma LoadedPagesDistinct(files: seq<InputFile>, pages: seq<PdfPage>)
    requires PagesListed(files, pages)
    ensures DistinctPages(pages)
  {
  }

  lemma DropIndexKeepsDistinct(pages: seq<PdfPage>, k: nat)
    requires DistinctPages(pages)
    ensures DistinctPages(DropIndex(pages, k))
  {
    var r := DropIndex(pages, k);
    forall a, b | 0 <= a < b < |r| ensures r[a] != r[b] {
      var a' := if a < k then a else a + 1;
      var b' := if b < k then b else b + 1;
      assert r[a] == pages[a'] && r[b] == pages[b'] && a' < b';
    }
  }

  /** Reordering keeps references distinct. */
  lemma ReorderKeepsDistinct(pages: seq<PdfPage>, source: nat, destination: nat)
    requires source < |pages| && DistinctPages(pages)
    ensures DistinctPages(ReorderPages(pages, source, destination))
  {
    var r := ReorderPages(pages, source, destination);
    var x := pages[source];
    var rest := DropIndex(pages, source);
    var at := if destination < |pages| then destination else |pages| - 1;
    DropIndexKeepsDistinct(pages, source);
    forall c | 0 <= c < |rest| ensures rest[c] != x {
      var c' := if c < source then c else c + 1;
      assert rest[c] == pages[c'] && c' != source;
    }
    assert DropIndex(r, at) == rest;
    forall a, b | 0 <= a < b < |r| ensures r[a] != r[b] {
      if a == at {
        assert r[b] == rest[b - 1];
      } else if b == at {
        assert r[a] == rest[a];
      } else {
        var a' := if a < at then a else a - 1;
        var b' := if b < at then b else b - 1;
        assert r[a] == rest[a'] && r[b] == rest[b'] && a' < b';
      }
    }
  }

  lemma PagesWithoutKeepsDistinct(pages: seq<PdfPage>, pdfIndex: nat)
    requires DistinctPages(pages)
    ensures DistinctPages(PagesWithout(pages, pdfIndex))
    decreases |pages|
  {
    if |pages| > 0 {
      assert DistinctPages(pages[1..]) by {
        forall a, b | 0 <= a < b < |pages[1..]| ensures pages[1..][a] != pages[1..][b] {
          assert pages[1..][a] == pages[a + 1] && pages[1..][b] == pages[b + 1];
        }
      }
      PagesWithoutKeepsDistinct(pages[1..], pdfIndex);
      var tail := PagesWithout(pages[1..], pdfIndex);
      if pages[0].pdfIndex != pdfIndex {
        assert pages[0] !in pages[1..] by {
          forall c | 0 <= c < |pages[1..]| ensures pages[1..][c] != pages[0] {
            assert pages[1..][c] == pages[c + 1];
          }
        }
        var r := [pages[0]] + tail;
        forall a, b | 0 <= a < b < |r| ensures r[a] != r[b] {
          if a == 0 {
            assert r[b] == tail[b - 1] && r[b] in pages[1..];
          } else {
            assert r[a] == tail[a - 1] && r[b] == tail[b - 1];
          }
        }
      } else {
        assert PagesWithout(pages, pdfIndex) == tail;
      }
    }
  }

  // ---------------------------------------------------------------------
  // Page references that resolve, and the corrected loader and removal

  /** Every page names an existing file entry and an existing page of it,
      so a merge cannot fail on the lookup. */
  predicate Resolvable(s: MergerState) {
    forall i :: 0 <= i < |s.pages| ==> Copyable(s.pdfFiles, s.pages[i])
  }

  /** The pages of `entries`, tagged with each entry's position in
      `entries`. */
  function PagesOfFiles(entries: seq<PdfFile>): (r: seq<PdfPage>)
    ensures forall i :: 0 <= i < |r| ==> Copyable(entries, r[i])
    decreases |entries|
  {
    if |entries| == 0 then []
    else
      var j := |entries| - 1;
      var prefix := PagesOfFiles(entries[..j]);
      assert forall i :: 0 <= i < |prefix| ==> entries[..j][prefix[i].pdfIndex] == entries[prefix[i].pdfIndex];
      prefix + PagesOf(j, entries[j].pageCount)
  }

  /** The loader with each page tagged by its file's position in
      `pdfFiles` rather than in the input list. */
  function LoadAllCorrected(files: seq<InputFile>): (r: Option<Loaded>)
    ensures r.Some? <==> AllPdfsParse(files)
    ensures r.Some? ==> r.value.pages == PagesOfFiles(r.value.files)
    decreases |files|
  {
    if |files| == 0 then Some(Loaded([], []))
    else
      var i := |files| - 1;
      var last := files[i];
      AllPdfsParseStep(files);
      match LoadAllCorrected(files[..i])
      case None => None
      case Some(acc) =>
        if !IsPdf(last) then Some(acc)
        else
          match last.parsedPages
          case None => None
          case Some(n) =>
            var entries := acc.files + [Entry(last)];
            assert entries[..|entries| - 1] == acc.files;
            Some(Loaded(entries, acc.pages + PagesOf(|acc.files|, n)))
  }

  /** The corrected loader records the same files as `LoadAll`. */
  lemma {:induction false} LoadersAgreeOnFiles(files: seq<InputFile>)
    requires AllPdfsParse(files)
    ensures LoadAll(files).value.files == LoadAllCorrected(files).value.files
    decreases |files|
  {
    if |files| > 0 {
      AllPdfsParseStep(files);
      LoadersAgreeOnFiles(files[..|files| - 1]);
    }
  }

  /** `loadPdfFiles` with the corrected tagging. */
  function LoadPdfFilesCorrected(s: MergerState, files: seq<InputFile>, ticks: nat): (r: MergerState)
    ensures |files| == 0 ==> r == s
    ensures |files| > 0 ==> !r.isLoading && r.mergedPdf == s.mergedPdf
    ensures |files| > 0 && AllPdfsParse(files) ==> r.progress == 100 && Resolvable(r)
    ensures |files| > 0 && !AllPdfsParse(files) ==>
              r.pdfFiles == s.pdfFiles && r.pages == s.pages && 0 <= r.progress <= 90
  {
    if |files| == 0 then s
    else
      match LoadAllCorrected(files)
      case None => s.(isLoading := false, progress := ClampedAfter(1, ticks))
      case Some(loaded) => s.(pdfFiles := loaded.files, pages := loaded.pages, isLoading := false, progress := 100)
  }

  /** A page's tag after file `removed` is gone from `pdfFiles`. */
  function Renumber(p: PdfPage, removed: nat): PdfPage {
    if p.pdfIndex > removed then p.(pdfIndex := p.pdfIndex - 1) else p
  }

  function RenumberAll(pages: seq<PdfPage>, removed: nat): (r: seq<PdfPage>)
    ensures |r| == |pages|
    ensures forall i :: 0 <= i < |r| ==> r[i] == Renumber(pages[i], removed)
  {
    seq(|pages|, i requires 0 <= i < |pages| => Renumber(pages[i], removed))
  }

  /** `removeFile` with the tags of later files shifted down, so that every
      surviving page still resolves to the file it was loaded from. */
  function RemoveFileCorrected(s: MergerState, pdfIndex: nat): (r: MergerState)
    ensures r.pdfFiles == DropIndex(s.pdfFiles, pdfIndex)
    ensures |r.pages| == |PagesWithout(s.pages, pdfIndex)|
    ensures Resolvable(s) ==> Resolvable(r)
    ensures Resolvable(s) ==> forall i :: 0 <= i < |r.pages| ==>
              var before := PagesWithout(s.pages, pdfIndex)[i];
              && before.pdfIndex != pdfIndex
              && r.pdfFiles[r.pages[i].pdfIndex] == s.pdfFiles[before.pdfIndex]
              && r.pages[i].pageIndex == before.pageIndex
    ensures r.isLoading == s.isLoading && r.mergedPdf == s.mergedPdf && r.progress == s.progress
  {
    var kept := PagesWithout(s.pages, pdfIndex);
    RenumberResolves(s, pdfIndex);
    s.(pdfFiles := DropIndex(s.pdfFiles, pdfIndex), pages := RenumberAll(kept, pdfIndex))
  }

  lemma RenumberResolves(s: MergerState, pdfIndex: nat)
    ensures var kept := PagesWithout(s.pages, pdfIndex);
            var files := DropIndex(s.pdfFiles, pdfIndex);
            var pages := RenumberAll(kept, pdfIndex);
            Resolvable(s) ==> forall i :: 0 <= i < |kept| ==>
              && kept[i].pdfIndex != pdfIndex
              && Copyable(files, pages[i])
              && files[pages[i].pdfIndex] == s.pdfFiles[kept[i].pdfIndex]
  {
    var kept := PagesWithout(s.pages, pdfIndex);
    var files := DropIndex(s.pdfFiles, pdfIndex);
    var pages := RenumberAll(kept, pdfIndex);
    if Resolvable(s) {
      forall i | 0 <= i < |kept|
        ensures kept[i].pdfIndex != pdfIndex
        ensures Copyable(files, pages[i])
        ensures files[pages[i].pdfIndex] == s.pdfFiles[kept[i].pdfIndex]
      {
        assert kept[i] in kept;
        var j :| 0 <= j < |s.pages| && s.pages[j] == kept[i];
        assert Copyable(s.pdfFiles, s.pages[j]);
      }
    }
  }

  lemma RemovePageKeepsResolvable(s: MergerState, position: nat)
    requires Resolvable(s)
    ensures Resolvable(RemovePage(s, position))
  {
  }

  lemma ReorderKeepsResolvable(s: MergerState, source: nat, destination: nat)
    requires Resolvable(s) && source < |s.pages|
    ensures Resolvable(s.(pages := ReorderPages(s.pages, source, destination)))
  {
    var r := ReorderPages(s.pages, source, destination);
    forall i | 0 <= i < |r| ensures Copyable(s.pdfFiles, r[i]) {
      assert r[i] in multiset(r);
      assert r[i] in s.pages;
    }
  }

  /** On resolvable references a non-empty merge succeeds exactly when
      re-loading and copying the pages and saving the result all work. */
  lemma ResolvableMergeSucceeds(s: MergerState, date: string, copySucceeds: bool, saveSucceeds: bool, ticks: nat)
    requires Resolvable(s) && |s.pages| > 0
    ensures MergePdfs(s, date, copySucceeds, saveSucceeds, ticks).mergedPdf.Some? <==>
              (copySucceeds && saveSucceeds) || s.mergedPdf.Some?
    ensures MergePdfs(s, date, copySucceeds, saveSucceeds, ticks).progress == 100 <==> copySucceeds && saveSucceeds
  {
  }

  // ---------------------------------------------------------------------
  // Where the input-position tags go wrong

  lemma LoadAllSkipStep(files: seq<InputFile>, f: InputFile)
    requires !IsPdf(f)
    ensures LoadAll(files + [f]) == LoadAll(files)
  {
    assert (files + [f])[..|files|] == files;
  }

  lemma LoadAllPdfStep(files: seq<InputFile>, f: InputFile, n: nat)
    requires IsPdf(f) && f.parsedPages == Some(n) && LoadAll(files).Some?
    ensures LoadAll(files + [f]) ==
              Some(Loaded(LoadAll(files).value.files + [Entry(f)], LoadAll(files).value.pages + PagesOf(|files|, n)))
  {
    assert (files + [f])[..|files|] == files;
  }

  /** Loading an image and then a.pdf (one page). */
  lemma LoadCoverThenOne(cover: InputFile, a: InputFile)
    requires !IsPdf(cover) && IsPdf(a) && a.parsedPages == Some(1)
    ensures LoadAll([cover, a]) == Some(Loaded([Entry(a)], [PdfPage(1, 0)]))
  {
    var empty: seq<InputFile> := [];
    assert LoadAll(empty) == Some(Loaded([], []));
    LoadAllSkipStep(empty, cover);
    assert empty + [cover] == [cover];
    LoadAllPdfStep([cover], a, 1);
    assert [cover] + [a] == [cover, a] && |[cover]| == 1;
    assert PagesOf(1, 1) == [PdfPage(1, 0)];
    assert [] + [Entry(a)] == [Entry(a)] && [] + [PdfPage(1, 0)] == [PdfPage(1, 0)];
  }

  /** Loading an image, a.pdf and b.pdf (one page each). */
  lemma LoadCoverThenTwo(cover: InputFile, a: InputFile, b: InputFile)
    requires !IsPdf(cover) && IsPdf(a) && IsPdf(b) && a.parsedPages == Some(1) && b.parsedPages == Some(1)
    ensures LoadAll([cover, a, b]) == Some(Loaded([Entry(a), Entry(b)], [PdfPage(1, 0), PdfPage(2, 0)]))
  {
    LoadCoverThenOne(cover, a);
    LoadAllPdfStep([cover, a], b, 1);
    assert [cover, a] + [b] == [cover, a, b] && |[cover, a]| == 2;
    assert PagesOf(2, 1) == [PdfPage(2, 0)];
    assert [Entry(a)] + [Entry(b)] == [Entry(a), Entry(b)];
    assert [PdfPage(1, 0)] + [PdfPage(2, 0)] == [PdfPage(1, 0), PdfPage(2, 0)];
  }

  /** Loading a.pdf and b.pdf (one page each). */
  lemma LoadTwo(a: InputFile, b: InputFile)
    requires IsPdf(a) && IsPdf(b) && a.parsedPages == Some(1) && b.parsedPages == Some(1)
    ensures LoadAll([a, b]) == Some(Loaded([Entry(a), Entry(b)], [PdfPage(0, 0), PdfPage(1, 0)]))
  {
    var empty: seq<InputFile> := [];
    assert LoadAll(empty) == Some(Loaded([], []));
    LoadAllPdfStep(empty, a, 1);
    assert empty + [a] == [a];
    assert PagesOf(0, 1) == [PdfPage(0, 0)];
    assert [] + [Entry(a)] == [Entry(a)] && [] + [PdfPage(0, 0)] == [PdfPage(0, 0)];
    assert LoadAll([a]) == Some(Loaded([Entry(a)], [PdfPage(0, 0)]));
    LoadAllPdfStep([a], b, 1);
    assert [a] + [b] == [a, b] && |[a]| == 1;
    assert PagesOf(1, 1) == [PdfPage(1, 0)];
    assert [Entry(a)] + [Entry(b)] == [Entry(a), Entry(b)];
    assert [PdfPage(0, 0)] + [PdfPage(1, 0)] == [PdfPage(0, 0), PdfPage(1, 0)];
  }

  /** A non-PDF file ahead of the PDFs shifts `pdfFiles` but not the tags:
      after dropping b.pdf's page, the merge copies b.pdf's page in place
      of a.pdf's, and before that the lookup of b.pdf's page fails. */
  lemma SkippedFileShiftsLookup(cover: InputFile, a: InputFile, b: InputFile, date: string)
    requires !IsPdf(cover) && IsPdf(a) && IsPdf(b) && a.parsedPages == Some(1) && b.parsedPages == Some(1)
    ensures var loaded := LoadPdfFiles(InitialState, [cover, a, b], 0);
            var edited := RemovePage(loaded, 1);
            && loaded.pdfFiles == [Entry(a), Entry(b)]
            && loaded.pages == [PdfPage(1, 0), PdfPage(2, 0)]
            && !Resolvable(loaded)
            && edited.pages == [PdfPage(1, 0)]
            && MergePdfs(edited, date, true, true, 0).mergedPdf == Some(MergedPdf(MergedName(date), [CopiedPage(b, 0)]))
  {
    LoadCoverThenTwo(cover, a, b);
    var loaded := LoadPdfFiles(InitialState, [cover, a, b], 0);
    assert loaded.pages == [PdfPage(1, 0), PdfPage(2, 0)];
    assert !Copyable(loaded.pdfFiles, loaded.pages[1]);
    var edited := RemovePage(loaded, 1);
    assert edited.pages == [PdfPage(1, 0)];
    assert edited.pdfFiles == [Entry(a), Entry(b)];
    assert Copyable(edited.pdfFiles, edited.pages[0]);
    var resolved := ResolvePages(edited.pdfFiles, edited.pages);
    assert resolved.Some? && |resolved.value| == 1;
    assert edited.pdfFiles[1].file == b;
    assert resolved.value[0] == CopiedPage(b, 0);
    assert resolved.value == [CopiedPage(b, 0)];
  }

  /** `removeFile` leaves later pages tagged with their old positions, so
      after removing a.pdf the page of b.pdf no longer resolves and the
      merge fails. */
  lemma RemoveFileLeavesStaleTags(a: InputFile, b: InputFile, date: string, ticks: nat)
    requires IsPdf(a) && IsPdf(b) && a.parsedPages == Some(1) && b.parsedPages == Some(1)
    ensures var loaded := LoadPdfFiles(InitialState, [a, b], 0);
            var removed := RemoveFile(loaded, 0);
            && Resolvable(loaded)
            && removed.pdfFiles == [Entry(b)]
            && removed.pages == [PdfPage(1, 0)]
            && !Resolvable(removed)
            && MergePdfs(removed, date, true, true, ticks).mergedPdf == None
  {
    LoadTwo(a, b);
    var loaded := LoadPdfFiles(InitialState, [a, b], 0);
    assert PagesWithout([PdfPage(1, 0)], 0) == [PdfPage(1, 0)];
    assert PagesWithout(loaded.pages, 0) == [PdfPage(1, 0)];
    var removed := RemoveFile(loaded, 0);
    assert !Copyable(removed.pdfFiles, removed.pages[0]);
  }
}

=== FILE: text.dfy ===
/** String helpers shared by the modules below.  Strings are `seq<char>`;
    only ASCII letters are case-mapped. */
module Text {

  predicate IsUpper(c: char) {
    'A' <= c <= 'Z'
  }

  /** ASCII lower-casing of one character. */
  function LowerChar(c: char): (r: char)
    ensures !IsUpper(r)
  {
    if IsUpper(c) then (c as int + 32) as char else c
  }

  /** `s.toLowerCase()`, restricted to ASCII letters. */
  function AsciiLower(s: string): (r: string)
    ensures |r| == |s|
    ensures forall i :: 0 <= i < |s| ==> r[i] == LowerChar(s[i])
  {
    seq(|s|, i requires 0 <= i < |s| => LowerChar(s[i]))
  }

  lemma AsciiLowerIdempotent(s: string)
    ensures AsciiLower(AsciiLower(s)) == AsciiLower(s)
  {
  }

  lemma AsciiLowerKeepsChar(s: string, c: char)
    requires !IsUpper(c) && !('a' <= c <= 'z')
    ensures c in s ==> c in AsciiLower(s)
    ensures c in AsciiLower(s) ==> c in s
  {
    if c in s {
      var i :| 0 <= i < |s| && s[i] == c;
      assert AsciiLower(s)[i] == c;
    }
    if c in AsciiLower(s) {
      var i :| 0 <= i < |s| && AsciiLower(s)[i] == c;
      assert s[i] == c;
    }
  }

  lemma AsciiLowerOfLower(s: string)
    requires forall i :: 0 <= i < |s| ==> !IsUpper(s[i])
    ensures AsciiLower(s) == s
  {
  }

  lemma AsciiLowerEmpty(s: string)
    ensures AsciiLower(s) == [] <==> s == []
  {
  }

  lemma AsciiLowerAppend(a: string, b: string)
    ensures AsciiLower(a + b) == AsciiLower(a) + AsciiLower(b)
  {
  }

  /** `s.split(sep).pop()`: the text after the last `sep`, or all of `s`
      when `sep` does not occur.  The three ensures pin it down: it is the
      longest suffix of `s` free of `sep`. */
  function LastSegment(s: string, sep: char): (r: string)
    ensures sep !in r
    ensures |r| <= |s| && s[|s| - |r|..] == r
    ensures |r| < |s| ==> s[|s| - |r| - 1] == sep
    decreases |s|
  {
    if |s| == 0 then []
    else if s[|s| - 1] == sep then []
    else
      var prefix := s[..|s| - 1];
      var tail := LastSegment(prefix, sep);
      assert s[|s| - |tail| - 1..] == prefix[|prefix| - |tail|..] + [s[|s| - 1]];
      tail + [s[|s| - 1]]
  }

  /** `s.split(sep)[0]`: the text before the first `sep`, or all of `s`
      when `sep` does not occur. */
  function FirstSegment(s: string, sep: char): (r: string)
    ensures sep !in r
    ensures |r| <= |s| && s[..|r|] == r
    ensures |r| < |s| ==> s[|r|] == sep
    decreases |s|
  {
    if |s| == 0 then []
    else if s[0] == sep then []
    else [s[0]] + FirstSegment(s[1..], sep)
  }

  /** The last segment after an explicit separator is whatever follows it. */
  lemma {:induction false} LastSegmentAfter(x: string, sep: char, y: string)
    requires sep !in y
    ensures LastSegment(x + [sep] + y, sep) == y
    decreases |y|
  {
    var s := x + [sep] + y;
    if |y| > 0 {
      assert s[..|s| - 1] == x + [sep] + y[..|y| - 1];
      assert y[|y| - 1] in y;
      LastSegmentAfter(x, sep, y[..|y| - 1]);
      assert y == y[..|y| - 1] + [y[|y| - 1]];
    }
  }

  /** A string without the separator is its own last segment. */
  lemma {:induction false} LastSegmentWithout(s: string, sep: char)
    requires sep !in s
    ensures LastSegment(s, sep) == s
    decreases |s|
  {
    if |s| > 0 {
      assert s[|s| - 1] in s;
      LastSegmentWithout(s[..|s| - 1], sep);
      assert s == s[..|s| - 1] + [s[|s| - 1]];
    }
  }

  /** The first segment before an explicit separator is whatever precedes it. */
  lemma {:induction false} FirstSegmentBefore(x: string, sep: char, y: string)
    requires sep !in x
    ensures FirstSegment(x + [sep] + y, sep) == x
    decreases |x|
  {
    var s := x + [sep] + y;
    if |x| > 0 {
      assert s[1..] == x[1..] + [sep] + y;
      assert x[0] in x;
      FirstSegmentBefore(x[1..], sep, y);
      assert x == [x[0]] + x[1..];
    }
  }

  predicate StartsWith(s: string, prefix: string) {
    |prefix| <= |s| && s[..|prefix|] == prefix
  }

  /** A string starts with `prefix` exactly when it is `prefix` followed by
      something. */
  lemma StartsWithSplit(s: string, prefix: string)
    ensures StartsWith(s, prefix) <==> exists rest :: s == prefix + rest
  {
    if StartsWith(s, prefix) {
      assert s == prefix + s[|prefix|..];
    }
    if exists rest :: s == prefix + rest {
      var rest :| s == prefix + rest;
      assert s[..|prefix|] == prefix;
    }
  }

  /** The characters `String.prototype.trim` removes: ECMAScript's
      WhiteSpace (tab, vertical tab, form feed, space, no-break space, byte
      order mark and the Unicode space separators) and LineTerminator. */
  predicate IsSpace(c: char) {
    || c == '\t' || c == '\U{B}' || c == '\U{C}' || c == ' ' || c == '\U{A0}' || c == '\U{FEFF}'
    || c == '\U{1680}' || '\U{2000}' <= c <= '\U{200A}' || c == '\U{202F}' || c == '\U{205F}'
    || c == '\U{3000}'
    || c == '\n' || c == '\r' || c == '\U{2028}' || c == '\U{2029}'
  }

  function TrimStart(s: string): (r: string)
    ensures |r| <= |s| && r == s[|s| - |r|..]
    ensures forall i :: 0 <= i < |s| - |r| ==> IsSpace(s[i])
    ensures r == [] || !IsSpace(r[0])
    decreases |s|
  {
    if |s| > 0 && IsSpace(s[0]) then TrimStart(s[1..]) else s
  }

  function TrimEnd(s: string): (r: string)
    ensures |r| <= |s| && r == s[..|r|]
    ensures forall i :: |r| <= i < |s| ==> IsSpace(s[i])
    ensures r == [] || !IsSpace(r[|r| - 1])
    decreases |s|
  {
    if |s| > 0 && IsSpace(s[|s| - 1]) then TrimEnd(s[..|s| - 1]) else s
  }

  /** `r` is `s[i..j]` and only spaces lie outside that slice. */
  predicate SpaceBounded(s: string, r: string, i: int, j: int) {
    && 0 <= i <= j <= |s| && r == s[i..j]
    && (forall k :: 0 <= k < i ==> IsSpace(s[k]))
    && (forall k :: j <= k < |s| ==> IsSpace(s[k]))
  }

  /** `s.trim()`: `s` with leading and trailing spaces cut.  The result is
      a slice of `s` with only spaces outside it and no space at either
      end of it. */
  function Trim(s: string): (r: string)
    ensures exists i, j :: SpaceBounded(s, r, i, j)
    ensures r == [] || (!IsSpace(r[0]) && !IsSpace(r[|r| - 1]))
  {
    TrimBounded(s);
    TrimEnd(TrimStart(s))
  }

  lemma TrimBounded(s: string)
    ensures SpaceBounded(s, TrimEnd(TrimStart(s)), |s| - |TrimStart(s)|, |s| - |TrimStart(s)| + |TrimEnd(TrimStart(s))|)
  {
    SuffixThenPrefixBounded(s, TrimStart(s), TrimEnd(TrimStart(s)));
  }

  /** Cutting leading spaces and then trailing spaces leaves a slice with
      only spaces outside it. */
  lemma SuffixThenPrefixBounded(s: string, a: string, r: string)
    requires |a| <= |s| && a == s[|s| - |a|..]
    requires forall k :: 0 <= k < |s| - |a| ==> IsSpace(s[k])
    requires |r| <= |a| && r == a[..|r|]
    requires forall k :: |r| <= k < |a| ==> IsSpace(a[k])
    ensures SpaceBounded(s, r, |s| - |a|, |s| - |a| + |r|)
  {
    var i := |s| - |a|;
    var j := i + |r|;
    assert s[i..][..|r|] == s[i..j];
    forall k | j <= k < |s| ensures IsSpace(s[k]) {
      assert s[k] == a[k - i];
    }
  }

  predicate IsDigit(c: char) {
    '0' <= c <= '9'
  }

  function DigitChar(d: nat): (c: char)
    requires d < 10
    ensures IsDigit(c)
  {
    ('0' as int + d) as char
  }

  /** Decimal text of a non-negative integer, as JavaScript's template
      literal prints it: no sign, no leading zeros. */
  function NatToString(n: nat): (r: string)
    ensures |r| > 0
    ensures forall i :: 0 <= i < |r| ==> IsDigit(r[i])
    decreases n
  {
    if n < 10 then [DigitChar(n)] else NatToString(n / 10) + [DigitChar(n % 10)]
  }

  /** The value of a string of decimal digits. */
  function DigitsValue(s: string): nat
    requires forall i :: 0 <= i < |s| ==> IsDigit(s[i])
    decreases |s|
  {
    if |s| == 0 then 0
    else
      assert IsDigit(s[|s| - 1]);
      DigitsValue(s[..|s| - 1]) * 10 + (s[|s| - 1] as int - '0' as int)
  }

  /** Reading back the printed decimal text gives the number. */
  lemma {:induction false} NatToStringRoundTrip(n: nat)
    ensures DigitsValue(NatToString(n)) == n
    decreases n
  {
    if n >= 10 {
      var s := NatToString(n);
      assert s[..|s| - 1] == NatToString(n / 10);
      NatToStringRoundTrip(n / 10);
    }
  }

  lemma NatToStringInjective(a: nat, b: nat)
    requires NatToString(a) == NatToString(b)
    ensures a == b
  {
    NatToStringRoundTrip(a);
    NatToStringRoundTrip(b);
  }
}

=== FILE: wrappers.dfy ===
/** Optional values and error-carrying results.  `Option` stands for the
    source's `null`/`undefined`; `Result` for a value or a thrown `Error`,
    whose message is kept as text. */
module Wrappers {

  datatype Option<+T> = None | Some(value: T)

  datatype Result<+T> = Ok(value: T) | Err(message: string)
}
